=== FILE: README.md ===
# Copasi2SedML in Dafny

This project models the translation core of Copasi2SedML. The tool turns a
COPASI model into a SED-ML simulation-experiment document. The document holds:

- the model reference;
- when the model has a "Time-Course" task, and only then:
  - one uniform time course and one task taken from it;
  - one 2-D plot per COPASI plot definition that keeps at least one curve;
  - one data generator per `dataIds` entry. An entry is made for every
    channel accepted before the first rejected one in its item, over all plot
    definitions and over earlier conversions by the same converter.

Without that task the document holds the model reference alone.

The project also models the command-line scanner of the export tool.

Inputs and outputs are immutable datatypes:

- `Copasi` holds the loaded data model: the model CN, its species, compartments,
  global quantities and reactions as (CN, SBML id, display name) records, the
  time-course settings and the plot definitions.
- `SedML` holds the document.

Each step of the converter is a pure function:

- `Resolver.GetSBMLId` resolves one plot channel.
- `PlotTranslator` covers `CreatePlot` and the plot loop of `Convert`.
- `DataGenerators` covers `CreateDataGenerators`.
- `Converter` covers `Convert` and `SaveTo`.

The converter's private fields `dataIds`, `names` and `types` form one
`Registry.Registry` value. It is threaded through the plot loop and kept in the
`Converter.Converter` state. It therefore survives repeated `Convert` calls on
the same converter, as the fields do in the source.

`Arguments` models `ParseArgs` as a recursive scan. The scan returns either the
help outcome or the two file properties. Its lemmas characterise the outcome by
the positions the scanner reads as flags (`FlagPositions`).

Each operation has an independent partner definition and a lemma that links the
two:

- The scanning resolver is proved equal to a single lookup table built from the
  model (`ResolverMatchesLookupTable`).
- The curves of the registry-threading loops are proved equal to a
  registry-free `Curves`/`NonEmptyPlots`. Those are proved to keep exactly the
  items (plots) that yield something, in their order, through a strictly
  increasing index map (`Selection.Picks`).
- The registry the loops build is proved equal to registering the accepted
  channels' bindings one after the other (`Registry.RegisterAll`). For that
  fold, `dataIds` is a dedup-append (`AppendNew`) of the ids, and each id holds
  the name and type of its last binding.
- The flag scanner is proved equal to "help at some flag position" plus "last
  setting flag wins".

Facts about the code that shape the model:

- `names`/`types` are overwritten by every resolution, so the most recent one
  wins (LibCopasi2SedML/Copasi2SedMLConverter.cs:164-165).
- Ids are registered as soon as their channel resolves, even when the item
  yields no curve. So there can be more data generators than distinct ids used
  by curves (`DiscardedItemStillRegistered`).
- The result of `loadModel` is ignored. A failed load is not a separate outcome.

## Model

| member | source | states |
|---|---|---|
| Text.LastIndexOf | LibCopasi2SedML/Copasi2SedMLConverter.cs:62-63 | The index is the last position holding the character, and it is -1 exactly when the character does not occur |
| Text.EndsWithConcat | LibCopasi2SedML/Copasi2SedMLConverter.cs:68 | A string ends with a suffix exactly when it is some string followed by that suffix |
| Text.BlankMeaning | LibCopasi2SedML/Copasi2SedMLConverter.cs:158 | A string is not null-or-blank exactly when it is present and holds a character that is not white space. A null or empty string counts as blank |
| Text.FileName | LibCopasi2SedML/Copasi2SedMLConverter.cs:217 | The file name is a suffix of the path with no directory separator, and it is preceded by a separator whenever it is shorter than the path |
| Text.FileNameWithoutSeparator | LibCopasi2SedML/Copasi2SedMLConverter.cs:217 | A path without a directory separator is its own file name |
| Text.Extension | LibCopasi2SedML/Copasi2SedMLConverter.cs:292 | The extension is empty exactly when the file name has no '.' or ends with one. Otherwise it is the file name from its last '.' on: a '.', at least one more character and no other '.', and the path ends with it |
| Text.FileNameWithoutExtension | LibCopasi2SedML/Copasi2SedMLConverter.cs:217 | The base name is the file name up to its last '.', or the whole file name when it has no '.'. The file name is the base name followed by the extension |
| Resolver.ObjectPath | LibCopasi2SedML/Copasi2SedMLConverter.cs:63 | The object path is the part of the channel before its last comma |
| Resolver.AttributeSuffix | LibCopasi2SedML/Copasi2SedMLConverter.cs:62 | The suffix holds no comma, and the channel is the object path, a comma and the suffix |
| Resolver.DerivedQuantityMeaning | LibCopasi2SedML/Copasi2SedMLConverter.cs:68 | An attribute is a derived quantity exactly when it is some text followed by "Rate" or by "ParticleNumber" |
| Resolver.FindByCN | LibCopasi2SedML/Copasi2SedMLConverter.cs:78-87 | The scan finds the first element whose CN equals the path exactly, and finds none exactly when no element has that CN |
| Resolver.LookupIn | LibCopasi2SedML/Copasi2SedMLConverter.cs:78-120 | A category yields a match exactly when one of its elements has the CN. The match carries that element's SBML id and display name |
| Resolver.GetSBMLId | LibCopasi2SedML/Copasi2SedMLConverter.cs:59-123 | A null id is returned exactly when the type is Unknown, and then the name is "unknown" |
| Resolver.ResolutionMeaning | LibCopasi2SedML/Copasi2SedMLConverter.cs:62-122 | A suffix ending in Rate or ParticleNumber is never resolved, whatever the prefix. Time ("time", "Time") is reported exactly for the model's own CN. Any other kind carries the id and name of an element of that category with that CN |
| Resolver.ResolutionOrder | LibCopasi2SedML/Copasi2SedMLConverter.cs:71-122 | The first match wins, in this order: model CN, then species, compartments, global quantities and reactions. A path matching nothing is unresolved |
| Resolver.LookupTableByCategory | LibCopasi2SedML/Copasi2SedMLConverter.cs:71-122 | Searching the table means trying the model CN, then each category in scan order |
| Resolver.ResolverMatchesLookupTable | LibCopasi2SedML/Copasi2SedMLConverter.cs:62-122 | For every channel, the resolver agrees with a first-match lookup in one table: the model CN followed by each category in scan order |
| Registry.AppendNew | LibCopasi2SedML/Copasi2SedMLConverter.cs:166-167 | The old list is a prefix of the result, the result holds exactly the old and new ids, and no duplicate is introduced |
| Registry.Register | LibCopasi2SedML/Copasi2SedMLConverter.cs:163-167 | The id is appended only if it is new. Its name and type are overwritten, the other entries are unchanged, and the fields stay consistent |
| Registry.AppendNewOrder | LibCopasi2SedML/Copasi2SedMLConverter.cs:166-167 | Each appended id is a new one, and the appended ids follow the order of their first occurrence in the input |
| Registry.RegisterAll | LibCopasi2SedML/Copasi2SedMLConverter.cs:163-167 | Registering bindings in turn: `dataIds` is the dedup-append of their ids. `names`/`types` gain exactly those ids, other ids keep their entries, and consistency is kept |
| Registry.RegisterAllConcat | LibCopasi2SedML/Copasi2SedMLConverter.cs:147-168 | Registering two batches one after the other is registering their concatenation |
| Registry.RegisterAllLastWins | LibCopasi2SedML/Copasi2SedMLConverter.cs:164-165 | Every bound id holds the name and type of its last binding |
| Registry.RegisterTwice | LibCopasi2SedML/Copasi2SedMLConverter.cs:164-167 | Registering an id twice leaves exactly one `dataIds` entry, carrying the second name and type |
| PlotTranslator.AcceptedId | LibCopasi2SedML/Copasi2SedMLConverter.cs:158 | An accepted channel's id is neither null nor blank |
| PlotTranslator.ResolvedPrefixMeaning | LibCopasi2SedML/Copasi2SedMLConverter.cs:152-163 | `data` holds the ids of the accepted leading channels, in order. The loop stops early only at a rejected channel |
| PlotTranslator.ResolveChannels | LibCopasi2SedML/Copasi2SedMLConverter.cs:150-168 | `addItems` survives exactly when every channel was accepted, and `dataIds` gains the collected ids in first-seen order |
| PlotTranslator.ChannelBindings | LibCopasi2SedML/Copasi2SedMLConverter.cs:152-165 | One binding per accepted leading channel, in channel order: that channel's id, name and type. Their ids are the collected `data` |
| PlotTranslator.ResolveChannelsRegisters | LibCopasi2SedML/Copasi2SedMLConverter.cs:152-168 | The channel loop's registry is the accepted channels' bindings registered in order |
| PlotTranslator.ResolveChannelsKeepsValid | LibCopasi2SedML/Copasi2SedMLConverter.cs:163-167 | The channel loop keeps `dataIds` duplicate-free and in step with `names` and `types` |
| PlotTranslator.ResolveChannelsKeys | LibCopasi2SedML/Copasi2SedMLConverter.cs:163-167 | `names`/`types` gain exactly the collected ids, and the entries of other ids are unchanged |
| PlotTranslator.ResolveChannelsLastWins | LibCopasi2SedML/Copasi2SedMLConverter.cs:164-165 | Each collected id carries the name and type of the last channel that resolved to it |
| PlotTranslator.UnreachedChannelsIgnored | LibCopasi2SedML/Copasi2SedMLConverter.cs:158-162 | Channels after a rejected one are never resolved: appending any channels, even without a comma, changes neither the outcome nor the registry |
| PlotTranslator.CurveOf | LibCopasi2SedML/Copasi2SedMLConverter.cs:169-176 | An item has a curve exactly when it has two channels and both are accepted. X is the first channel's id and Y the second's |
| PlotTranslator.ItemCurveIsCurveOf | LibCopasi2SedML/Copasi2SedMLConverter.cs:169-176 | The curve the loop emits for an item does not depend on the registry |
| PlotTranslator.CurvesMeaning | LibCopasi2SedML/Copasi2SedMLConverter.cs:147-177 | Each curve comes from some item, and both of its ids are neither null nor blank |
| PlotTranslator.CurvesAreSomes | LibCopasi2SedML/Copasi2SedMLConverter.cs:147-177 | The curves are the present entries of the per-item curve list, in item order |
| PlotTranslator.CurvesInItemOrder | LibCopasi2SedML/Copasi2SedMLConverter.cs:147-177 | The curves are those of the items that yield one, each once, in item order (a strictly increasing index map), and no item's curve is left out |
| PlotTranslator.TranslateItems | LibCopasi2SedML/Copasi2SedMLConverter.cs:147-177 | The item loop emits exactly the registry-free curves. `dataIds` gains every collected id, including ids from items that yield no curve |
| PlotTranslator.TranslateItemsRegisters | LibCopasi2SedML/Copasi2SedMLConverter.cs:147-177 | The item loop's registry is all items' bindings registered in order |
| PlotTranslator.TranslateItemsKeepsValid | LibCopasi2SedML/Copasi2SedMLConverter.cs:163-167 | The item loop keeps the registry consistent |
| PlotTranslator.CurveIdsResolved | LibCopasi2SedML/Copasi2SedMLConverter.cs:152-175 | Every id a curve refers to is among the ids the channel loops collect |
| PlotTranslator.TranslateItemsRegistersCurveIds | LibCopasi2SedML/Copasi2SedMLConverter.cs:163-175 | Every id in an emitted curve is in `dataIds` |
| PlotTranslator.CreatePlot | LibCopasi2SedML/Copasi2SedMLConverter.cs:136-179 | Title and log flags are copied, and there are at most as many curves as items. The curves are registry-free and their ids are registered |
| PlotTranslator.NonEmptyPlots | LibCopasi2SedML/Copasi2SedMLConverter.cs:263-270 | The kept plots all have a curve, and each of them is the translation of some plot definition |
| PlotTranslator.NonEmptyPlotsAreSomes | LibCopasi2SedML/Copasi2SedMLConverter.cs:263-270 | The kept plots are the present entries of the per-definition list, in definition order |
| PlotTranslator.PlotsInDefinitionOrder | LibCopasi2SedML/Copasi2SedMLConverter.cs:263-270 | The kept plots are the translated definitions that have a curve, each once, in definition order (a strictly increasing index map), and none of them is dropped |
| PlotTranslator.TranslatePlots | LibCopasi2SedML/Copasi2SedMLConverter.cs:263-270 | The outputs are the translated plots that have a curve, in definition order. `dataIds` is the dedup-append of all collected ids and covers every curve |
| PlotTranslator.TranslatePlotsRegisters | LibCopasi2SedML/Copasi2SedMLConverter.cs:263-270 | The plot loop's registry is all plots' bindings registered in order |
| PlotTranslator.TranslatePlotsRecords | LibCopasi2SedML/Copasi2SedMLConverter.cs:263-270 | After the plot loop each collected id holds the name and type of its last resolution. `names`/`types` gain exactly the collected ids, and every other id keeps its entries |
| PlotTranslator.DiscardedItemStillRegistered | LibCopasi2SedML/Copasi2SedMLConverter.cs:157-169 | When the second channel is rejected, the item yields no curve, yet the first channel's id is registered |
| DataGenerators.GeneratorsFor | LibCopasi2SedML/Copasi2SedMLConverter.cs:190-203 | There is one generator per id, in order: id and name from the registry, a single variable "v" bound to "task1" whose target depends only on the type and the id, and math "v" |
| DataGenerators.CreateDataGenerators | LibCopasi2SedML/Copasi2SedMLConverter.cs:187-204 | There are as many generators as `dataIds` entries |
| DataGenerators.GeneratorsMatchDataIds | LibCopasi2SedML/Copasi2SedMLConverter.cs:190-194 | For a consistent registry, the generator ids are exactly `dataIds`, in order and without repetition |
| DataGenerators.GeneratorsBoundToTask | LibCopasi2SedML/Copasi2SedMLConverter.cs:196-199 | Every generator variable refers to "task1" |
| Converter.ToInt32 | LibCopasi2SedML/Copasi2SedMLConverter.cs:246 | The cast lies in the 32-bit range, agrees with the step number modulo 2^32, and is the identity below 2^31 |
| Converter.AlgorithmFor | LibCopasi2SedML/Copasi2SedMLConverter.cs:250-252 | The algorithm is deterministic exactly for the deterministic sub-type, and stochastic for every other |
| Converter.CreateSimulation | LibCopasi2SedML/Copasi2SedMLConverter.cs:245-257 | "sim1" has the model's initial time and the task's start time. Its end time is start plus the cast step number times the step size, which is start + steps*stepSize whenever the count fits in 31 bits |
| Converter.NewConverter | LibCopasi2SedML/Copasi2SedMLConverter.cs:305-308 | A new converter holds only its input file: no output file, no document, and the empty (consistent) registry |
| Converter.SbmlFile | LibCopasi2SedML/Copasi2SedMLConverter.cs:216-224 | The SBML file is in the given directory, and its name is the output's base name followed by "-sbml.xml" |
| Converter.Convert | LibCopasi2SedML/Copasi2SedMLConverter.cs:212-273 | There is always exactly one model, "model1". Without "Time-Course" there is nothing else and the registry is untouched. Otherwise there are "sim1", task1→(sim1, model1), the plots that have a curve, in order, and the generators `CreateDataGenerators` builds from the final registry, which is the plots' bindings registered on top of the old one |
| Converter.ConvertIsWellReferenced | LibCopasi2SedML/Copasi2SedMLConverter.cs:235-272 | In every built document, tasks name an existing simulation and model, generator ids are unique, variables name an existing task, and curves name existing generators |
| Converter.FreshConversionGenerators | LibCopasi2SedML/Copasi2SedMLConverter.cs:263-272 | For a new converter, the generators are the distinct accepted ids of all plots, in first-seen order |
| Converter.SaveTo | LibCopasi2SedML/Copasi2SedMLConverter.cs:284-297 | Conversion runs only when there is no document yet. The document is written to the given path, as an archive exactly when the extension ends with "sedx" |
| Converter.SaveToWriterByName | LibCopasi2SedML/Copasi2SedMLConverter.cs:284-297 | `SaveTo` writes to the given path, using the archive writer exactly when the file name has a '.' and the text after its last '.' ends in "sedx" |
| Converter.ArchiveNameMeaning | LibCopasi2SedML/Copasi2SedMLConverter.cs:292-293 | A name is an archive name exactly when its file name contains a '.' and the text after the last '.' ends in "sedx" |
| Converter.ArchiveNameEndsInSedx | LibCopasi2SedML/Copasi2SedMLConverter.cs:292-293 | An archive name itself ends in "sedx" |
| Converter.ArchiveNameExample | LibCopasi2SedML/Copasi2SedMLConverter.cs:292-294 | "a.sedx" is written as an archive |
| Converter.PlainNameExample | LibCopasi2SedML/Copasi2SedMLConverter.cs:292-296 | "a.xml" is written as plain SED-ML |
| Arguments.ParseFrom | CopasiSedMLExport/Arguments.cs:52-72 | From any position, help comes only from a help token among the tokens scanned, and the scan ends parsed when there is none. A property that changes takes the token right after a flag for it |
| Arguments.ParseArgs | CopasiSedMLExport/Arguments.cs:52-72 | Help is asked for only when some token is a help token, and the arguments are parsed whenever none is. Each property stays null or holds the token right after a flag for it |
| Arguments.IsValid | CopasiSedMLExport/Arguments.cs:39-44 | Valid exactly when both properties are set to non-empty names and the COPASI file exists |
| Arguments.FlagPositionsFrom | CopasiSedMLExport/Arguments.cs:54-71 | Flag positions are strictly increasing and in range. After a value flag with a successor the next flag position is two tokens on, otherwise one. They run to the end: none when the scan starts past the end, the first is the start otherwise, and the step after the last one leaves `args` |
| Arguments.LastValueMeaning | CopasiSedMLExport/Arguments.cs:62-70 | The value is that of the last flag position setting the field, or the old value when none does |
| Arguments.ParseFromHelp | CopasiSedMLExport/Arguments.cs:52-72 | From any position, the scan ends with help exactly when one of the flag positions from there on holds a help token |
| Arguments.ParseFromValues | CopasiSedMLExport/Arguments.cs:52-72 | When the scan ends without help, each property is the value of its last setting flag, or its previous value |
| Arguments.ParseFromMeaning | CopasiSedMLExport/Arguments.cs:52-72 | From any position, the scan asks for help exactly when a flag position holds a help token. Otherwise each field is set by its last setting flag |
| Arguments.HelpExactlyAtFlagPosition | CopasiSedMLExport/Arguments.cs:60-61 | `ParseArgs` gives the help outcome exactly when a help token sits at a flag position |
| Arguments.LastFlagWins | CopasiSedMLExport/Arguments.cs:62-70 | A repeated flag is overwritten by its last occurrence, and an unset field stays null |
| Arguments.ConsumedValueIsNotAFlag | CopasiSedMLExport/Arguments.cs:57-69 | A token consumed as a value is never at a flag position |
| Arguments.FileFlagTakesHelpTokenAsValue | CopasiSedMLExport/Arguments.cs:57-65 | `-f -h` sets the COPASI file to "-h" without asking for help |
| Arguments.TrailingValueFlagIgnored | CopasiSedMLExport/Arguments.cs:57-69 | A value flag in the last position leaves the fields unchanged |
| Arguments.UnrecognisedTokenIgnored | CopasiSedMLExport/Arguments.cs:54-71 | A token that is not a flag changes nothing |
| Arguments.ValidArgumentsNameBothFiles | CopasiSedMLExport/Arguments.cs:39-44 | Valid arguments mean the COPASI file is the non-empty, existing value of the last `-f` flag and the output file the non-empty value of the last `-o` flag |

## Left out

- The COPASI library is not modelled: `CCopasiRootContainer.init`, `addDatamodel`, `loadModel`, `exportSBML`, `getTask` and the getters. `Convert` receives the loaded `DataModel` instead, with the "Time-Course" lookup as a map from task name to trajectory settings. Exceptions that native calls may throw are not modelled.
- File and path I/O is not modelled. The text `File.ReadAllText` returns is the parameter `sbmlText`. The directory from `Path.GetDirectoryName`, or `Environment.CurrentDirectory` when that is null, is the parameter `outputDirectory`. `Path.Combine` is the symbolic `FilePath`.
- Directory separators: `Text.IsDirectorySeparator` accepts '/' and '\'. The Windows volume separator ':' is not treated specially.
- `SBMLLanguage.GetXPath` is the symbolic `XPath(type, id)` and is not expanded into an XPath string.
- libSedML internals are not modelled: `UpdateStores`, `FixCommonErrors`, `WriteTo` and `WriteToArchive`. The document `Convert` returns is the one assembled before the `FixCommonErrors` repair pass. `SaveTo` returns which writer gets the document instead of writing it.
- `SaveTo`'s second null check (line 289) is not modelled. In the model `Convert` always produces a document, so the early return there cannot happen.
- Console output and `Environment.Exit` in `PrintUsageAndExit` are not modelled. Help is the `HelpRequested` outcome. `File.Exists` is the oracle parameter `fileExists` of `IsValid`.
- CopasiSedMLExport/Program.cs is wiring only and is not part of this model.
- Resolver.GetSBMLId: requires a comma in the channel. The source's `Substring(0, -1)` throws without one. `CreatePlot` accordingly requires a comma only in the channels its loop reaches (`ReachedChannelsHaveComma`).
- Converter.Convert: requires the registry to be consistent (`Registry.Valid`). This holds for every converter built by the constructor and updated only by `Convert`, since the three fields are private.
- Start time, step size and end time are `real` instead of IEEE doubles, so rounding is not modelled. The step number is an unbounded `nat` and is not limited to 64 bits.
- `EndsWith` is compared character by character, not with the culture-sensitive comparison of .NET. Strings are sequences of Unicode scalar values, not UTF-16 code units.
- Resolver.GetSBMLId: its contract only ties a null id to Unknown. The other resolution facts are in `ResolutionMeaning`, `ResolutionOrder` and `ResolverMatchesLookupTable`, which keeps each proof small.

=== FILE: arguments.dfy ===
/**
 * The command-line scanner of the export tool: `-f|--file <copasi file>`,
 * `-o|--out <SED-ML file>` and `-h|/?|--help`, read left to right.
 */
module Arguments {
  import opened Wrappers
  import opened Text

  /** The two properties the scanner sets; `None` is their initial null. */
  datatype Arguments = Arguments(copasiFile: Option<string>, outFile: Option<string>)

  /** How scanning ends: a help token prints the usage and exits, otherwise the properties are set. */
  datatype ParseOutcome = HelpRequested | Parsed(arguments: Arguments)

  const Unset := Arguments(None, None)

  predicate IsHelpFlag(token: string)
  {
    token == "-h" || token == "/?" || token == "--help"
  }

  predicate IsFileFlag(token: string)
  {
    token == "-f" || token == "--file"
  }

  predicate IsOutFlag(token: string)
  {
    token == "-o" || token == "--out"
  }

  /** The token at `i` is a value flag with a token after it, which it takes as its value and skips. */
  predicate ConsumesNext(args: seq<string>, i: nat)
    requires i < |args|
  {
    (IsFileFlag(args[i]) || IsOutFlag(args[i])) && i + 1 < |args|
  }

  /**
   * The scanning loop of `ParseArgs` from position `i`, with the properties set
   * so far in `acc`. Help is asked for only when a help token is among the
   * tokens scanned, and a property that changes takes the token right after
   * a flag for it.
   */
  function ParseFrom(args: seq<string>, i: nat, acc: Arguments): (r: ParseOutcome)
    ensures r.HelpRequested? ==> exists p :: i <= p < |args| && IsHelpFlag(args[p])
    ensures (forall p :: i <= p < |args| ==> !IsHelpFlag(args[p])) ==> r.Parsed?
    ensures r.Parsed? ==>
      (r.arguments.copasiFile == acc.copasiFile
       || exists p :: i <= p && p + 1 < |args| && IsFileFlag(args[p]) && r.arguments.copasiFile == Some(args[p + 1]))
    ensures r.Parsed? ==>
      (r.arguments.outFile == acc.outFile
       || exists p :: i <= p && p + 1 < |args| && IsOutFlag(args[p]) && r.arguments.outFile == Some(args[p + 1]))
    decreases |args| - i
  {
    if i >= |args| then Parsed(acc)
    else if IsHelpFlag(args[i]) then HelpRequested
    else if IsFileFlag(args[i]) && i + 1 < |args| then ParseFrom(args, i + 2, acc.(copasiFile := Some(args[i + 1])))
    else if IsOutFlag(args[i]) && i + 1 < |args| then ParseFrom(args, i + 2, acc.(outFile := Some(args[i + 1])))
    else ParseFrom(args, i + 1, acc)
  }

  /**
   * `ParseArgs`, on a fresh `Arguments`: help only when some token is a help
   * token, never without one, and each property either stays null or holds
   * the token right after a flag for it.
   */
  function ParseArgs(args: seq<string>): (r: ParseOutcome)
    ensures r.HelpRequested? ==> exists p :: 0 <= p < |args| && IsHelpFlag(args[p])
    ensures (forall p :: 0 <= p < |args| ==> !IsHelpFlag(args[p])) ==> r.Parsed?
    ensures r.Parsed? ==>
      (r.arguments.copasiFile == None
       || exists p :: 0 <= p && p + 1 < |args| && IsFileFlag(args[p]) && r.arguments.copasiFile == Some(args[p + 1]))
    ensures r.Parsed? ==>
      (r.arguments.outFile == None
       || exists p :: 0 <= p && p + 1 < |args| && IsOutFlag(args[p]) && r.arguments.outFile == Some(args[p + 1]))
  {
    ParseFrom(args, 0, Unset)
  }

  /**
   * The positions the scanner reads as flags from `i` on: each is followed by
   * the next token, or by the one after when the flag consumed a value.
   */
  function FlagPositionsFrom(args: seq<string>, i: nat): (ps: seq<nat>)
    ensures forall k :: 0 <= k < |ps| ==> i <= ps[k] < |args|
    ensures |args| > i ==> |ps| > 0 && ps[0] == i
    ensures forall k :: 0 <= k < |ps| - 1 ==> ps[k + 1] == if ConsumesNext(args, ps[k]) then ps[k] + 2 else ps[k] + 1
    ensures forall a, b :: 0 <= a < b < |ps| ==> ps[a] < ps[b]
    ensures |args| <= i ==> ps == []
    ensures |ps| > 0 ==> ps[|ps| - 1] + (if ConsumesNext(args, ps[|ps| - 1]) then 2 else 1) >= |args|
    decreases |args| - i
  {
    if i >= |args| then []
    else
      var rest := FlagPositionsFrom(args, if ConsumesNext(args, i) then i + 2 else i + 1);
      [i] + rest
  }

  /** From a position inside `args`, that position comes first and the scan goes on from the next flag position. */
  lemma FlagPositionsCons(args: seq<string>, i: nat)
    requires i < |args|
    ensures FlagPositionsFrom(args, i) == [i] + FlagPositionsFrom(args, if ConsumesNext(args, i) then i + 2 else i + 1)
  {
  }

  function FlagPositions(args: seq<string>): seq<nat>
  {
    FlagPositionsFrom(args, 0)
  }

  /** Which property a value flag sets. */
  datatype Field = CopasiFileField | OutFileField

  /** The flag at `p` sets `field`: it names that field and has a token after it. */
  predicate Sets(args: seq<string>, p: nat, field: Field)
  {
    && p + 1 < |args|
    && (if field == CopasiFileField then IsFileFlag(args[p]) else IsOutFlag(args[p]))
  }

  /**
   * The value of the last flag position in `ps` that sets `field`, or `d`
   * when none does.
   */
  function LastValue(args: seq<string>, ps: seq<nat>, field: Field, d: Option<string>): Option<string>
    decreases |ps|
  {
    if |ps| == 0 then d
    else if Sets(args, ps[|ps| - 1], field) then Some(args[ps[|ps| - 1] + 1])
    else LastValue(args, ps[..|ps| - 1], field, d)
  }

  /** A repeated flag is overwritten: the last flag position that sets the field supplies its value. */
  lemma {:induction false} LastValueMeaning(args: seq<string>, ps: seq<nat>, field: Field, d: Option<string>)
    ensures (forall k :: 0 <= k < |ps| ==> !Sets(args, ps[k], field)) ==> LastValue(args, ps, field, d) == d
    ensures (exists k :: 0 <= k < |ps| && Sets(args, ps[k], field)) ==>
      exists k :: 0 <= k < |ps| && Sets(args, ps[k], field) && LastValue(args, ps, field, d) == Some(args[ps[k] + 1])
        && forall k' :: k < k' < |ps| ==> !Sets(args, ps[k'], field)
    decreases |ps|
  {
    if |ps| > 0 && !Sets(args, ps[|ps| - 1], field) {
      var init := ps[..|ps| - 1];
      LastValueMeaning(args, init, field, d);
      assert forall k :: 0 <= k < |init| ==> init[k] == ps[k];
      if exists k :: 0 <= k < |ps| && Sets(args, ps[k], field) {
        var k :| 0 <= k < |ps| && Sets(args, ps[k], field);
        assert k < |init|;
      }
    }
  }

  lemma {:induction false} LastValueCons(args: seq<string>, p: nat, ps: seq<nat>, field: Field, d: Option<string>)
    ensures LastValue(args, [p] + ps, field, d)
      == LastValue(args, ps, field, if Sets(args, p, field) then Some(args[p + 1]) else d)
    decreases |ps|
  {
    if |ps| > 0 {
      var all := [p] + ps;
      assert all[|all| - 1] == ps[|ps| - 1];
      assert all[..|all| - 1] == [p] + ps[..|ps| - 1];
      LastValueCons(args, p, ps[..|ps| - 1], field, d);
    }
  }

  /** Some position in `ps` holds a help token. */
  predicate HelpAmong(args: seq<string>, ps: seq<nat>)
  {
    exists k :: 0 <= k < |ps| && ps[k] < |args| && IsHelpFlag(args[ps[k]])
  }

  lemma HelpAmongCons(args: seq<string>, p: nat, ps: seq<nat>)
    ensures HelpAmong(args, [p] + ps) <==> (p < |args| && IsHelpFlag(args[p])) || HelpAmong(args, ps)
  {
    var all := [p] + ps;
    assert all[0] == p;
    if HelpAmong(args, ps) {
      var k :| 0 <= k < |ps| && ps[k] < |args| && IsHelpFlag(args[ps[k]]);
      assert all[k + 1] == ps[k];
    }
    if HelpAmong(args, all) {
      var k :| 0 <= k < |all| && all[k] < |args| && IsHelpFlag(args[all[k]]);
      if k > 0 {
        assert all[k] == ps[k - 1];
      }
    }
  }

  /** The property values after one step of the scan at a position that is not a help token. */
  function Step(args: seq<string>, i: nat, acc: Arguments): Arguments
    requires i < |args|
  {
    if IsFileFlag(args[i]) && i + 1 < |args| then acc.(copasiFile := Some(args[i + 1]))
    else if IsOutFlag(args[i]) && i + 1 < |args| then acc.(outFile := Some(args[i + 1]))
    else acc
  }

  /** The scan from `i` asks for help exactly when some flag position from `i` on holds a help token. */
  lemma {:induction false} ParseFromHelp(args: seq<string>, i: nat, acc: Arguments)
    ensures ParseFrom(args, i, acc).HelpRequested? <==> HelpAmong(args, FlagPositionsFrom(args, i))
    decreases |args| - i
  {
    if i < |args| {
      var next := if ConsumesNext(args, i) then i + 2 else i + 1;
      var rest := FlagPositionsFrom(args, next);
      FlagPositionsCons(args, i);
      HelpAmongCons(args, i, rest);
      ParseFromStep(args, i, acc);
      if !IsHelpFlag(args[i]) {
        ParseFromHelp(args, next, Step(args, i, acc));
      }
    }
  }

  /** Without help, the scan from `i` leaves each property at the value of its last setting flag, or as it was. */
  lemma {:induction false} ParseFromValues(args: seq<string>, i: nat, acc: Arguments)
    requires ParseFrom(args, i, acc).Parsed?
    ensures ParseFrom(args, i, acc).arguments == Arguments(
      LastValue(args, FlagPositionsFrom(args, i), CopasiFileField, acc.copasiFile),
      LastValue(args, FlagPositionsFrom(args, i), OutFileField, acc.outFile))
    decreases |args| - i
  {
    if i < |args| {
      var next := if ConsumesNext(args, i) then i + 2 else i + 1;
      ParseFromStep(args, i, acc);
      ParseFromValues(args, next, Step(args, i, acc));
      FlagPositionsCons(args, i);
      ValuesStep(args, i, FlagPositionsFrom(args, next), acc, ParseFrom(args, next, Step(args, i, acc)).arguments);
    }
  }

  /** A token that is not a help token hands the scan on to the next flag position with the step's values; a help token ends it. */
  lemma ParseFromStep(args: seq<string>, i: nat, acc: Arguments)
    requires i < |args|
    ensures IsHelpFlag(args[i]) ==> ParseFrom(args, i, acc) == HelpRequested
    ensures !IsHelpFlag(args[i]) ==>
      ParseFrom(args, i, acc) == ParseFrom(args, if ConsumesNext(args, i) then i + 2 else i + 1, Step(args, i, acc))
  {
  }

  /** The last setting flag of `[i] + rest`, starting from `acc`, is that of `rest` starting from the step's values. */
  lemma ValuesStep(args: seq<string>, i: nat, rest: seq<nat>, acc: Arguments, values: Arguments)
    requires i < |args|
    requires values == Arguments(
      LastValue(args, rest, CopasiFileField, Step(args, i, acc).copasiFile),
      LastValue(args, rest, OutFileField, Step(args, i, acc).outFile))
    ensures values == Arguments(
      LastValue(args, [i] + rest, CopasiFileField, acc.copasiFile),
      LastValue(args, [i] + rest, OutFileField, acc.outFile))
  {
    LastValueCons(args, i, rest, CopasiFileField, acc.copasiFile);
    LastValueCons(args, i, rest, OutFileField, acc.outFile);
    StepSetsFields(args, i, acc);
  }

  /** One step sets a property exactly when the flag at `i` sets its field. */
  lemma StepSetsFields(args: seq<string>, i: nat, acc: Arguments)
    requires i < |args|
    ensures Step(args, i, acc).copasiFile
      == if Sets(args, i, CopasiFileField) then Some(args[i + 1]) else acc.copasiFile
    ensures Step(args, i, acc).outFile
      == if Sets(args, i, OutFileField) && !Sets(args, i, CopasiFileField) then Some(args[i + 1]) else acc.outFile
  {
  }

  /**
   * What the scan from `i` yields: help exactly when some flag position holds a
   * help token, and otherwise each property is the value of its last setting
   * flag, or what it was before.
   */
  lemma ParseFromMeaning(args: seq<string>, i: nat, acc: Arguments)
    ensures var ps, r := FlagPositionsFrom(args, i), ParseFrom(args, i, acc);
      && (r.HelpRequested? <==> exists k :: 0 <= k < |ps| && IsHelpFlag(args[ps[k]]))
      && (r.Parsed? ==> r.arguments == Arguments(
            LastValue(args, ps, CopasiFileField, acc.copasiFile),
            LastValue(args, ps, OutFileField, acc.outFile)))
  {
    ParseFromHelp(args, i, acc);
    if ParseFrom(args, i, acc).Parsed? {
      ParseFromValues(args, i, acc);
    }
  }

  /** A help token ends parsing with the help outcome exactly when the scanner reads it as a flag. */
  lemma HelpExactlyAtFlagPosition(args: seq<string>)
    ensures ParseArgs(args).HelpRequested? <==>
      exists k :: 0 <= k < |FlagPositions(args)| && IsHelpFlag(args[FlagPositions(args)[k]])
  {
    ParseFromMeaning(args, 0, Unset);
    var ps := FlagPositions(args);
    assert ParseArgs(args).HelpRequested? <==> exists k :: 0 <= k < |ps| && IsHelpFlag(args[ps[k]]);
  }

  /**
   * Without help, each property holds the value after the last flag that
   * sets it, and stays null when no flag sets it.
   */
  lemma LastFlagWins(args: seq<string>)
    requires ParseArgs(args).Parsed?
    ensures ParseArgs(args).arguments.copasiFile == LastValue(args, FlagPositions(args), CopasiFileField, None)
    ensures ParseArgs(args).arguments.outFile == LastValue(args, FlagPositions(args), OutFileField, None)
  {
    ParseFromMeaning(args, 0, Unset);
  }

  /** No position right after a consuming flag is itself among the flag positions `ps`. */
  predicate ValuesAreNotFlags(args: seq<string>, ps: seq<nat>)
  {
    forall k :: 0 <= k < |ps| && ps[k] < |args| && ConsumesNext(args, ps[k]) ==> ps[k] + 1 !in ps
  }

  /** A token consumed as a value is never read as a flag. */
  lemma ConsumedValueIsNotAFlag(args: seq<string>, i: nat)
    ensures ValuesAreNotFlags(args, FlagPositionsFrom(args, i))
  {
    var ps := FlagPositionsFrom(args, i);
    StepsSkipValues(args, ps);
  }

  /** In an increasing list that steps two past every consuming flag, no consumed value appears. */
  lemma StepsSkipValues(args: seq<string>, ps: seq<nat>)
    requires forall k :: 0 <= k < |ps| ==> ps[k] < |args|
    requires forall k :: 0 <= k < |ps| - 1 ==> ps[k + 1] == if ConsumesNext(args, ps[k]) then ps[k] + 2 else ps[k] + 1
    requires forall a, b :: 0 <= a < b < |ps| ==> ps[a] < ps[b]
    ensures ValuesAreNotFlags(args, ps)
  {
    forall k | 0 <= k < |ps| && ps[k] < |args| && ConsumesNext(args, ps[k])
      ensures ps[k] + 1 !in ps
    {
      forall j | 0 <= j < |ps|
        ensures ps[j] != ps[k] + 1
      {
        if j > k + 1 {
          assert ps[k + 1] < ps[j];
        }
      }
    }
  }

  /** `-f -h` sets the COPASI file to "-h" and does not ask for help. */
  lemma FileFlagTakesHelpTokenAsValue()
    ensures ParseArgs(["-f", "-h"]) == Parsed(Arguments(Some("-h"), None))
  {
  }

  /** A value flag in the last position is ignored. */
  lemma TrailingValueFlagIgnored(args: seq<string>, acc: Arguments)
    requires |args| > 0 && (IsFileFlag(args[|args| - 1]) || IsOutFlag(args[|args| - 1]))
    ensures ParseFrom(args, |args| - 1, acc) == Parsed(acc)
  {
  }

  /** A token that is no flag changes nothing. */
  lemma UnrecognisedTokenIgnored(args: seq<string>, i: nat, acc: Arguments)
    requires i < |args| && !IsHelpFlag(args[i]) && !IsFileFlag(args[i]) && !IsOutFlag(args[i])
    ensures ParseFrom(args, i, acc) == ParseFrom(args, i + 1, acc)
  {
  }

  /**
   * `IsValid`, with `File.Exists` supplied as `fileExists`: both properties
   * are set to non-empty names and the COPASI file exists.
   */
  predicate IsValid(a: Arguments, fileExists: string -> bool): (b: bool)
    ensures b <==> && a.copasiFile.Some? && a.copasiFile.value != "" && fileExists(a.copasiFile.value)
                   && a.outFile.Some? && a.outFile.value != ""
  {
    !IsNullOrEmpty(a.copasiFile) && fileExists(a.copasiFile.value) && !IsNullOrEmpty(a.outFile)
  }

  /**
   * Valid arguments came from the command line: the COPASI file is the
   * non-empty, existing value of the last `-f`/`--file` flag, and the output
   * file the non-empty value of the last `-o`/`--out` flag.
   */
  lemma ValidArgumentsNameBothFiles(args: seq<string>, fileExists: string -> bool)
    requires ParseArgs(args).Parsed? && IsValid(ParseArgs(args).arguments, fileExists)
    ensures var ps := FlagPositions(args);
      exists k :: 0 <= k < |ps| && Sets(args, ps[k], CopasiFileField)
        && ParseArgs(args).arguments.copasiFile == Some(args[ps[k] + 1])
        && args[ps[k] + 1] != "" && fileExists(args[ps[k] + 1])
        && forall k' :: k < k' < |ps| ==> !Sets(args, ps[k'], CopasiFileField)
    ensures var ps := FlagPositions(args);
      exists k :: 0 <= k < |ps| && Sets(args, ps[k], OutFileField)
        && ParseArgs(args).arguments.outFile == Some(args[ps[k] + 1]) && args[ps[k] + 1] != ""
        && forall k' :: k < k' < |ps| ==> !Sets(args, ps[k'], OutFileField)
  {
    LastFlagWins(args);
    NamedByLastFlags(args, FlagPositions(args), ParseArgs(args).arguments, fileExists);
  }

  /** Valid properties that are the last values set along `ps` name both files through their last setting flags. */
  lemma NamedByLastFlags(args: seq<string>, ps: seq<nat>, a: Arguments, fileExists: string -> bool)
    requires a.copasiFile == LastValue(args, ps, CopasiFileField, None)
    requires a.outFile == LastValue(args, ps, OutFileField, None)
    requires IsValid(a, fileExists)
    ensures exists k ::
      && 0 <= k < |ps| && Sets(args, ps[k], CopasiFileField)
      && a.copasiFile == Some(args[ps[k] + 1]) && args[ps[k] + 1] != "" && fileExists(args[ps[k] + 1])
      && forall k' :: k < k' < |ps| ==> !Sets(args, ps[k'], CopasiFileField)
    ensures exists k ::
      && 0 <= k < |ps| && Sets(args, ps[k], OutFileField)
      && a.outFile == Some(args[ps[k] + 1]) && args[ps[k] + 1] != ""
      && forall k' :: k < k' < |ps| ==> !Sets(args, ps[k'], OutFileField)
  {
    SetByAFlag(args, ps, CopasiFileField, a.copasiFile.value);
    SetByAFlag(args, ps, OutFileField, a.outFile.value);
  }

  /** A value other than the default comes from the last flag position that sets the field. */
  lemma SetByAFlag(args: seq<string>, ps: seq<nat>, field: Field, v: string)
    requires LastValue(args, ps, field, None) == Some(v)
    ensures exists k :: 0 <= k < |ps| && Sets(args, ps[k], field) && v == args[ps[k] + 1]
                        && forall k' :: k < k' < |ps| ==> !Sets(args, ps[k'], field)
  {
    LastValueMeaning(args, ps, field, None);
  }
}

=== FILE: converter.dfy ===
/**
 * `Convert` and `SaveTo`: assembling the SED-ML document from a loaded
 * COPASI data model, and choosing how it is written.
 */
module Converter {
  import opened Wrappers
  import opened Text
  import opened Copasi
  import opened SedML
  import opened Registry
  import opened PlotTranslator
  import opened DataGenerators

  /** The name of the task that is translated. */
  const TimeCourseTask := "Time-Course"
  const ModelId := "model1"
  const SimulationId := "sim1"
  /** Appended to the output's base name to name the exported SBML file. */
  const SbmlSuffix := "-sbml.xml"
  /** An output whose extension ends with this is written as a COMBINE archive. */
  const ArchiveExtension := "sedx"

  const TwoTo31: int := 0x8000_0000
  const TwoTo32: int := 0x1_0000_0000

  /** C#'s unchecked `(int)` cast of the unsigned step number: its low 32 bits read as two's complement. */
  function ToInt32(n: nat): (r: int)
    ensures -TwoTo31 <= r < TwoTo31
    ensures (n - r) % TwoTo32 == 0
    ensures n < TwoTo31 ==> r == n
  {
    var low := n % TwoTo32;
    if low < TwoTo31 then low else low - TwoTo32
  }

  /** The KiSAO choice: deterministic exactly for the deterministic sub-type, stochastic for every other. */
  function AlgorithmFor(subType: MethodSubType): (a: Algorithm)
    ensures a == DeterministicAlgorithm <==> subType == Deterministic
    ensures a == StochasticAlgorithm <==> subType != Deterministic
  {
    if subType == Deterministic then DeterministicAlgorithm else StochasticAlgorithm
  }

  /**
   * The uniform time course "sim1" of a trajectory task. The number of points
   * is the cast step number, and the output window ends that many step sizes
   * after its start.
   */
  function CreateSimulation(model: CModel, task: TrajectoryTask): (sim: UniformTimeCourse)
    ensures sim.id == SimulationId
    ensures sim.initialTime == model.initialTime && sim.outputStartTime == task.outputStartTime
    ensures sim.numberOfPoints == ToInt32(task.stepNumber)
    ensures sim.outputEndTime - sim.outputStartTime == sim.numberOfPoints as real * task.stepSize
    ensures task.stepNumber < TwoTo31 ==>
      sim.outputEndTime == task.outputStartTime + task.stepNumber as real * task.stepSize
    ensures sim.algorithm == DeterministicAlgorithm <==> task.subType == Deterministic
  {
    var steps := ToInt32(task.stepNumber);
    var endTime := task.outputStartTime + steps as real * task.stepSize;
    UniformTimeCourse(SimulationId, model.initialTime, task.outputStartTime, endTime, steps, AlgorithmFor(task.subType))
  }

  /**
   * A converter: the input file, the output file once `Convert` has run, the
   * document once built, and the bookkeeping fields, which live as long as the
   * converter does.
   */
  datatype Converter = Converter(copasiFile: string, outputFile: Option<string>, sedML: Option<SedMLInfo>, registry: Registry)

  /** The constructor: only the input file is set. */
  function NewConverter(copasiFile: string): (c: Converter)
    ensures c.copasiFile == copasiFile && c.outputFile.None? && c.sedML.None?
    ensures c.registry == Empty && Valid(c.registry)
  {
    Converter(copasiFile, None, None, Empty)
  }

  /**
   * What the COPASI library and the file system supply to `Convert`: the
   * directory the SBML file goes to (that of the output file, or the current
   * directory), the loaded data model, and the text of the exported SBML file.
   */
  datatype Environment = Environment(outputDirectory: string, dataModel: DataModel, sbmlText: string)

  /** The SBML file written beside the output: its base name with "-sbml.xml" appended. */
  function SbmlFile(directory: string, outFile: string): (f: FilePath)
    ensures f.directory == directory && EndsWith(f.fileName, SbmlSuffix)
    ensures f.fileName[..|f.fileName| - |SbmlSuffix|] == FileNameWithoutExtension(outFile)
  {
    var name := FileNameWithoutExtension(outFile) + SbmlSuffix;
    assert name[|name| - |SbmlSuffix|..] == SbmlSuffix;
    Combined(directory, name)
  }

  /** What `Convert` needs of its environment: the plots it translates have well-formed channels. */
  predicate Convertible(env: Environment)
  {
    TimeCourseTask in env.dataModel.tasks ==> PlotsWellFormed(env.dataModel.model, env.dataModel.plots)
  }

  /**
   * `Convert`. The document always holds the one model "model1", pointing at
   * the SBML file and inlining its text. Without a "Time-Course" task that is
   * all it holds. With one, it has the simulation "sim1", the task "task1"
   * running it on "model1", the translated plots that have a curve, in
   * definition order, and one generator per registered id.
   */
  function Convert(c: Converter, outFile: string, env: Environment): (r: Converter)
    requires Valid(c.registry)
    requires Convertible(env)
    ensures r.copasiFile == c.copasiFile && r.outputFile == Some(outFile)
    ensures Valid(r.registry)
    ensures r.sedML.Some?
    ensures r.sedML.value.models == [Model(ModelId, SbmlFile(env.outputDirectory, outFile), env.sbmlText)]
    ensures TimeCourseTask !in env.dataModel.tasks ==>
      && r.sedML.value.simulations == [] && r.sedML.value.tasks == []
      && r.sedML.value.dataGenerators == [] && r.sedML.value.outputs == []
      && r.registry == c.registry
    ensures TimeCourseTask in env.dataModel.tasks ==>
      && r.sedML.value.simulations
         == [CreateSimulation(env.dataModel.model, env.dataModel.tasks[TimeCourseTask])]
      && r.sedML.value.tasks == [Task(TaskId, SimulationId, ModelId)]
      && r.sedML.value.outputs == NonEmptyPlots(env.dataModel.model, env.dataModel.plots)
      && r.registry.dataIds
         == AppendNew(c.registry.dataIds, ResolvedIdsOfPlots(env.dataModel.model, env.dataModel.plots))
      && GeneratorIds(r.sedML.value.dataGenerators) == r.registry.dataIds
      && r.registry == RegisterAll(c.registry, PlotBindings(env.dataModel.model, env.dataModel.plots))
      && Covered(r.registry.dataIds, r.registry.names, r.registry.types)
      && r.sedML.value.dataGenerators == CreateDataGenerators(r.registry)
  {
    var models := [Model(ModelId, SbmlFile(env.outputDirectory, outFile), env.sbmlText)];
    var dm := env.dataModel;
    if TimeCourseTask !in dm.tasks then
      Converter(c.copasiFile, Some(outFile), Some(SedMLInfo(models, [], [], [], [])), c.registry)
    else
      var simulation := CreateSimulation(dm.model, dm.tasks[TimeCourseTask]);
      var plots := TranslatePlots(dm.model, dm.plots, c.registry);
      GeneratorsMatchDataIds(plots.registry);
      TranslatePlotsRegisters(dm.model, dm.plots, c.registry);
      var document := SedMLInfo(
        models, [simulation], [Task(TaskId, SimulationId, ModelId)],
        CreateDataGenerators(plots.registry), plots.outputs);
      Converter(c.copasiFile, Some(outFile), Some(document), plots.registry)
  }

  /**
   * The document's cross references resolve: tasks name an existing
   * simulation and model, generator ids are unique, variables name an existing
   * task, and every curve refers to existing data generators.
   */
  ghost predicate WellReferenced(doc: SedMLInfo)
  {
    && (forall t :: t in doc.tasks ==>
          (exists s :: s in doc.simulations && s.id == t.simulationReference)
          && (exists m :: m in doc.models && m.id == t.modelReference))
    && NoDuplicates(GeneratorIds(doc.dataGenerators))
    && (forall g, v :: g in doc.dataGenerators && v in g.variables ==>
          exists t :: t in doc.tasks && t.id == v.taskReference)
    && PlotIdsIn(doc.outputs, GeneratorIds(doc.dataGenerators))
  }

  /** A time-course document is well referenced once its generators are unique, bound to "task1" and cover the curves. */
  lemma TimeCourseDocumentWellReferenced(doc: SedMLInfo)
    requires |doc.models| == 1 && doc.models[0].id == ModelId
    requires |doc.simulations| == 1 && doc.simulations[0].id == SimulationId
    requires doc.tasks == [Task(TaskId, SimulationId, ModelId)]
    requires forall g, v :: g in doc.dataGenerators && v in g.variables ==> v.taskReference == TaskId
    requires NoDuplicates(GeneratorIds(doc.dataGenerators))
    requires PlotIdsIn(doc.outputs, GeneratorIds(doc.dataGenerators))
    ensures WellReferenced(doc)
  {
    assert doc.simulations[0] in doc.simulations;
    assert doc.models[0] in doc.models;
    assert doc.tasks[0] in doc.tasks;
  }

  /** Every document `Convert` builds is well referenced. */
  lemma ConvertIsWellReferenced(c: Converter, outFile: string, env: Environment)
    requires Valid(c.registry)
    requires Convertible(env)
    ensures WellReferenced(Convert(c, outFile, env).sedML.value)
  {
    var dm := env.dataModel;
    var doc := Convert(c, outFile, env).sedML.value;
    if TimeCourseTask in dm.tasks {
      var plots := TranslatePlots(dm.model, dm.plots, c.registry);
      GeneratorsMatchDataIds(plots.registry);
      GeneratorsBoundToTask(plots.registry);
      assert doc.dataGenerators == CreateDataGenerators(plots.registry);
      assert doc.outputs == plots.outputs;
      TimeCourseDocumentWellReferenced(doc);
    }
  }

  /**
   * A fresh converter's generators are one per distinct id collected from the
   * plots, in the order first collected.
   */
  lemma FreshConversionGenerators(copasiFile: string, outFile: string, env: Environment)
    requires Convertible(env) && TimeCourseTask in env.dataModel.tasks
    ensures var doc := Convert(NewConverter(copasiFile), outFile, env).sedML.value;
      && GeneratorIds(doc.dataGenerators) == AppendNew([], ResolvedIdsOfPlots(env.dataModel.model, env.dataModel.plots))
      && NoDuplicates(GeneratorIds(doc.dataGenerators))
  {
  }

  /** The writer `SaveTo` hands the document to. */
  datatype Write = WriteToArchive(path: string, document: SedMLInfo) | WriteTo(path: string, document: SedMLInfo)

  datatype Saved = Saved(converter: Converter, write: Write)

  /** `Path.GetExtension(outFile).EndsWith("sedx")`. */
  predicate IsArchiveName(outFile: string)
  {
    EndsWith(Extension(outFile), ArchiveExtension)
  }

  /**
   * `SaveTo`: converts only when no document exists yet, then writes the
   * document to `outFile`, as an archive exactly when the extension ends with
   * "sedx".
   */
  function SaveTo(c: Converter, outFile: string, env: Environment): (s: Saved)
    requires c.sedML.None? ==> Valid(c.registry) && Convertible(env)
    ensures c.sedML.Some? ==> s.converter == c
    ensures c.sedML.None? ==> s.converter == Convert(c, outFile, env)
    ensures s.converter.sedML.Some? && s.write.document == s.converter.sedML.value
    ensures s.write.path == outFile
    ensures s.write.WriteToArchive? <==> IsArchiveName(outFile)
  {
    var converted := if c.sedML.None? then Convert(c, outFile, env) else c;
    var document := converted.sedML.value;
    if IsArchiveName(outFile) then Saved(converted, WriteToArchive(outFile, document))
    else Saved(converted, WriteTo(outFile, document))
  }

  /**
   * Which writer `SaveTo` picks, stated on the file name alone: the archive
   * writer exactly when the name has a '.' and the text after the last '.'
   * ends in "sedx"; the document goes to `outFile` either way.
   */
  lemma SaveToWriterByName(c: Converter, outFile: string, env: Environment)
    requires c.sedML.None? ==> Valid(c.registry) && Convertible(env)
    ensures var s := SaveTo(c, outFile, env); var name := FileName(outFile);
      && s.write.path == outFile
      && (s.write.WriteToArchive? <==> '.' in name && EndsWith(name[LastIndexOf(name, '.') + 1..], ArchiveExtension))
  {
    ArchiveNameMeaning(outFile);
  }

  /**
   * An output is written as an archive exactly when its file name has a '.'
   * and the text after the last '.' ends in "sedx".
   */
  lemma ArchiveNameMeaning(outFile: string)
    ensures var name := FileName(outFile);
      IsArchiveName(outFile) <==> '.' in name && EndsWith(name[LastIndexOf(name, '.') + 1..], ArchiveExtension)
  {
    if Extension(outFile) == "" {
      NoExtensionNoArchive(outFile);
    } else {
      ExtensionArchive(outFile);
    }
  }

  lemma NoExtensionNoArchive(outFile: string)
    requires Extension(outFile) == ""
    ensures var name := FileName(outFile);
      !IsArchiveName(outFile) && !('.' in name && EndsWith(name[LastIndexOf(name, '.') + 1..], ArchiveExtension))
  {
    var name := FileName(outFile);
    if '.' in name {
      var dot := LastIndexOf(name, '.');
      assert name[|name| - 1] == '.';
      assert dot == |name| - 1;
      assert |name[dot + 1..]| == 0;
    }
  }

  lemma ExtensionArchive(outFile: string)
    requires Extension(outFile) != ""
    ensures var name := FileName(outFile);
      '.' in name && (IsArchiveName(outFile) <==> EndsWith(name[LastIndexOf(name, '.') + 1..], ArchiveExtension))
  {
    ExtensionTail(outFile);
    SuffixAfterDot(Extension(outFile));
  }

  /** Past its '.', a non-empty extension is the rest of the file name after its last '.'. */
  lemma ExtensionTail(outFile: string)
    requires Extension(outFile) != ""
    ensures var name := FileName(outFile);
      Extension(outFile)[1..] == name[LastIndexOf(name, '.') + 1..]
  {
    var name := FileName(outFile);
    var dot := LastIndexOf(name, '.');
    assert Extension(outFile) == name[dot..];
  }

  /** An archive's name ends in "sedx" itself. */
  lemma ArchiveNameEndsInSedx(outFile: string)
    requires IsArchiveName(outFile)
    ensures EndsWith(outFile, ArchiveExtension)
  {
    SuffixOfSuffix(outFile, Extension(outFile));
  }

  /** Past a leading '.', a text ends in "sedx" exactly when the whole does. */
  lemma SuffixAfterDot(e: string)
    requires |e| > 0 && e[0] == '.'
    ensures EndsWith(e, ArchiveExtension) <==> EndsWith(e[1..], ArchiveExtension)
  {
    if |e| >= 5 {
      assert e[|e| - 4..] == e[1..][|e| - 5..];
    }
  }

  lemma SuffixOfSuffix(s: string, e: string)
    requires EndsWith(s, e) && EndsWith(e, ArchiveExtension)
    ensures EndsWith(s, ArchiveExtension)
  {
    assert s[|s| - 4..] == e[|e| - 4..];
  }

  /** "a.sedx" is written as an archive. */
  lemma ArchiveNameExample()
    ensures IsArchiveName("a.sedx")
  {
    var s := "a.sedx";
    assert FileName(s) == s by {
      FileNameWithoutSeparator(s);
    }
    assert LastIndexOf(s, '.') == 1 by {
      assert s[1] == '.';
    }
    assert Extension(s) == ".sedx";
    assert EndsWith(".sedx", ArchiveExtension);
  }

  /** "a.xml" is written as plain SED-ML. */
  lemma PlainNameExample()
    ensures !IsArchiveName("a.xml")
  {
    var s := "a.xml";
    assert FileName(s) == s by {
      FileNameWithoutSeparator(s);
    }
    assert LastIndexOf(s, '.') == 1 by {
      assert s[1] == '.';
    }
    assert Extension(s) == ".xml";
    assert !EndsWith(".xml", ArchiveExtension);
  }
}

=== FILE: copasi.dfy ===
/**
 * The parts of a loaded COPASI data model that the converter reads, as plain
 * records. Every model element is identified by its common name (CN), the
 * path string COPASI also uses inside plot channels.
 */
module Copasi {

  /** A species (metabolite), compartment, global quantity or reaction. */
  datatype Element = Element(cn: string, sbmlId: string, displayName: string)

  /** `CModel`: its own CN, its initial time and its four element lists, in COPASI's order. */
  datatype CModel = CModel(
    cn: string,
    initialTime: real,
    metabolites: seq<Element>,
    compartments: seq<Element>,
    modelValues: seq<Element>,
    reactions: seq<Element>)

  /** `CPlotItem`: its data channels, each the string form of a `CPlotDataChannelSpec`. */
  datatype PlotItem = PlotItem(channels: seq<string>)

  /** `CPlotSpecification`. */
  datatype PlotSpecification = PlotSpecification(title: string, logX: bool, logY: bool, items: seq<PlotItem>)

  /** The sub-type of the time-course method; only `Deterministic` is told apart. */
  datatype MethodSubType = Deterministic | Stochastic | OtherSubType(name: string)

  /**
   * A time-course (`CTrajectoryTask`) with the problem and method values the
   * converter reads. `stepNumber` is COPASI's unsigned step count.
   */
  datatype TrajectoryTask = TrajectoryTask(
    outputStartTime: real,
    stepNumber: nat,
    stepSize: real,
    subType: MethodSubType)

  /** `CCopasiDataModel` after loading: the model, its time-course tasks by name and its plot definitions in order. */
  datatype DataModel = DataModel(model: CModel, tasks: map<string, TrajectoryTask>, plots: seq<PlotSpecification>)
}

=== FILE: generators.dfy ===
/** `CreateDataGenerators`: one data generator per id in `dataIds`. */
module DataGenerators {
  import opened SedML
  import opened Registry

  /** The symbol of each generator's single variable, which is also its whole math. */
  const VariableSymbol := "v"

  /** The id of the one task every variable is bound to. */
  const TaskId := "task1"

  /** Every id in `ids` has an entry in both dictionaries, so the lookups of the loop succeed. */
  ghost predicate Covered(ids: seq<string>, names: map<string, string>, types: map<string, VariableType>)
  {
    forall id :: id in ids ==> id in names && id in types
  }

  /**
   * The generators for `ids`, in order: each is named after its id's entry in
   * `names`, has the single variable "v" bound to "task1" whose target depends
   * only on the id and its type, and computes just "v".
   */
  function GeneratorsFor(ids: seq<string>, names: map<string, string>, types: map<string, VariableType>): (dgs: seq<DataGenerator>)
    requires Covered(ids, names, types)
    ensures |dgs| == |ids|
    ensures forall i :: 0 <= i < |ids| ==> dgs[i].id == ids[i] && dgs[i].name == names[ids[i]]
    ensures forall i :: 0 <= i < |ids| ==>
      dgs[i].variables == [Variable(VariableSymbol, TaskId, XPath(types[ids[i]], ids[i]))]
    ensures forall i :: 0 <= i < |ids| ==> dgs[i].math == VariableSymbol
    decreases |ids|
  {
    if |ids| == 0 then []
    else
      var id := ids[0];
      [DataGenerator(id, names[id], [Variable(VariableSymbol, TaskId, XPath(types[id], id))], VariableSymbol)]
        + GeneratorsFor(ids[1..], names, types)
  }

  /** `CreateDataGenerators`: the generators for the registry's `dataIds`. */
  function CreateDataGenerators(reg: Registry): (dgs: seq<DataGenerator>)
    requires Covered(reg.dataIds, reg.names, reg.types)
    ensures |dgs| == |reg.dataIds|
  {
    GeneratorsFor(reg.dataIds, reg.names, reg.types)
  }

  /** The ids of a list of data generators, in order. */
  function GeneratorIds(dgs: seq<DataGenerator>): (ids: seq<string>)
    ensures |ids| == |dgs|
    ensures forall i :: 0 <= i < |dgs| ==> ids[i] == dgs[i].id
  {
    seq(|dgs|, i requires 0 <= i < |dgs| => dgs[i].id)
  }

  /**
   * For a consistent registry there is exactly one generator per distinct id:
   * the generator ids are the `dataIds`, in order, with no repetition.
   */
  lemma GeneratorsMatchDataIds(reg: Registry)
    requires Valid(reg)
    ensures Covered(reg.dataIds, reg.names, reg.types)
    ensures GeneratorIds(CreateDataGenerators(reg)) == reg.dataIds
    ensures NoDuplicates(GeneratorIds(CreateDataGenerators(reg)))
  {
  }

  /** Every variable of every generator is bound to "task1". */
  lemma GeneratorsBoundToTask(reg: Registry)
    requires Covered(reg.dataIds, reg.names, reg.types)
    ensures forall g, v :: g in CreateDataGenerators(reg) && v in g.variables ==> v.taskReference == TaskId
  {
    var dgs := CreateDataGenerators(reg);
    forall g, v | g in dgs && v in g.variables
      ensures v.taskReference == TaskId
    {
      var i :| 0 <= i < |dgs| && dgs[i] == g;
    }
  }
}

=== FILE: plots.dfy ===
/**
 * `CreatePlot` and the plot loop of `Convert`: each plot item's channels are
 * resolved in order until one is rejected; every accepted channel is recorded
 * in the registry at once, and an item yields a curve only when all of its
 * channels were accepted and it has exactly two.
 */
module PlotTranslator {
  import opened Wrappers
  import opened Text
  import opened Copasi
  import opened SedML
  import opened Resolver
  import opened Registry
  import opened Selection

  /** A resolution the plot loop keeps: a known kind and an id that is not null or blank. */
  predicate Accepted(r: Resolution)
  {
    r.kind != Unknown && !IsNullOrWhiteSpace(r.sbmlId)
  }

  predicate ChannelAccepted(model: CModel, channel: string)
  {
    HasComma(channel) && Accepted(GetSBMLId(model, channel))
  }

  /** The SBML id an accepted channel contributes. */
  function AcceptedId(model: CModel, channel: string): (id: string)
    requires ChannelAccepted(model, channel)
    ensures !IsNullOrWhiteSpace(Some(id))
  {
    GetSBMLId(model, channel).sbmlId.value
  }

  /**
   * The channels the loop reaches all have a comma: it reaches the first
   * channel, and the next one after each accepted channel.
   */
  predicate ReachedChannelsHaveComma(model: CModel, channels: seq<string>)
    decreases |channels|
  {
    |channels| == 0
    || (HasComma(channels[0])
        && (Accepted(GetSBMLId(model, channels[0])) ==> ReachedChannelsHaveComma(model, channels[1..])))
  }

  /**
   * The ids the loop collects in `data`: those of the channels accepted before
   * the first rejected one, so it stops at the first failure.
   */
  function ResolvedPrefix(model: CModel, channels: seq<string>): (d: seq<string>)
    requires ReachedChannelsHaveComma(model, channels)
    ensures |d| <= |channels|
    decreases |channels|
  {
    if |channels| == 0 then []
    else
      var r := GetSBMLId(model, channels[0]);
      if !Accepted(r) then []
      else [r.sbmlId.value] + ResolvedPrefix(model, channels[1..])
  }

  /**
   * Partial failure: the collected ids are those of the leading accepted
   * channels, one per channel and in channel order, and when the loop stops
   * early it is at a channel that is rejected.
   */
  lemma {:induction false} ResolvedPrefixMeaning(model: CModel, channels: seq<string>)
    requires ReachedChannelsHaveComma(model, channels)
    ensures var d := ResolvedPrefix(model, channels);
      && (forall k :: 0 <= k < |d| ==> ChannelAccepted(model, channels[k]) && d[k] == AcceptedId(model, channels[k]))
      && (|d| < |channels| ==> HasComma(channels[|d|]) && !ChannelAccepted(model, channels[|d|]))
    decreases |channels|
  {
    var d := ResolvedPrefix(model, channels);
    if |channels| == 0 {
    } else if !ChannelAccepted(model, channels[0]) {
      assert d == [];
    } else {
      var tail := channels[1..];
      ResolvedPrefixMeaning(model, tail);
      var rest := ResolvedPrefix(model, tail);
      assert d == [AcceptedId(model, channels[0])] + rest;
      forall k | 0 <= k < |d|
        ensures ChannelAccepted(model, channels[k]) && d[k] == AcceptedId(model, channels[k])
      {
        if k > 0 {
          assert channels[k] == tail[k - 1] && d[k] == rest[k - 1];
        }
      }
      if |d| < |channels| {
        assert channels[|d|] == tail[|rest|];
      }
    }
  }

  /** The state of one pass of the item loop: the registry, `data` and `addItems`. */
  datatype ItemOutcome = ItemOutcome(registry: Registry, data: seq<string>, addItems: bool)

  /**
   * The channel loop of one plot item: `data` collects the accepted prefix,
   * `addItems` survives exactly when every channel was accepted, and
   * `dataIds` gains the new ids in first-seen order.
   */
  function ResolveChannels(model: CModel, channels: seq<string>, reg: Registry): (o: ItemOutcome)
    requires ReachedChannelsHaveComma(model, channels)
    ensures o.data == ResolvedPrefix(model, channels)
    ensures o.addItems <==> |o.data| == |channels|
    ensures o.registry.dataIds == AppendNew(reg.dataIds, o.data)
    decreases |channels|
  {
    if |channels| == 0 then ItemOutcome(reg, [], true)
    else
      var r := GetSBMLId(model, channels[0]);
      if !Accepted(r) then ItemOutcome(reg, [], false)
      else
        var id := r.sbmlId.value;
        var rest := ResolveChannels(model, channels[1..], Register(reg, id, r.name, r.kind));
        AppendNewConcat(reg.dataIds, [id], rest.data);
        ItemOutcome(rest.registry, [id] + rest.data, rest.addItems)
  }

  /** The channel loop keeps the registry's three fields in step. */
  lemma {:induction false} ResolveChannelsKeepsValid(model: CModel, channels: seq<string>, reg: Registry)
    requires ReachedChannelsHaveComma(model, channels)
    requires Valid(reg)
    ensures Valid(ResolveChannels(model, channels, reg).registry)
    decreases |channels|
  {
    if |channels| > 0 {
      var r := GetSBMLId(model, channels[0]);
      if Accepted(r) {
        ResolveChannelsKeepsValid(model, channels[1..], Register(reg, r.sbmlId.value, r.name, r.kind));
      }
    }
  }

  /**
   * `names` and `types` after the channel loop: their keys gain exactly the
   * collected ids and an id not collected keeps its entries.
   */
  lemma ResolveChannelsKeys(model: CModel, channels: seq<string>, reg: Registry)
    requires ReachedChannelsHaveComma(model, channels)
    ensures var o := ResolveChannels(model, channels, reg);
      && (forall x :: x in o.registry.names <==> x in reg.names || x in o.data)
      && (forall x :: x in o.registry.types <==> x in reg.types || x in o.data)
      && (forall x :: x in reg.names && x !in o.data ==> o.registry.names[x] == reg.names[x])
      && (forall x :: x in reg.types && x !in o.data ==> o.registry.types[x] == reg.types[x])
  {
    ResolveChannelsRegisters(model, channels, reg);
  }

  /** The binding an accepted channel records: its id with the name and kind it resolved to. */
  function BindingOf(model: CModel, channel: string): (b: Binding)
    requires ChannelAccepted(model, channel)
    ensures b.id == AcceptedId(model, channel)
    ensures b.name == GetSBMLId(model, channel).name && b.kind == GetSBMLId(model, channel).kind
  {
    var r := GetSBMLId(model, channel);
    Binding(r.sbmlId.value, r.name, r.kind)
  }

  /** The bindings of the channels the loop accepts before the first rejected one. */
  function ChannelBindings(model: CModel, channels: seq<string>): (bs: seq<Binding>)
    requires ReachedChannelsHaveComma(model, channels)
    ensures Ids(bs) == ResolvedPrefix(model, channels)
    ensures forall k :: 0 <= k < |bs| ==> ChannelAccepted(model, channels[k]) && bs[k] == BindingOf(model, channels[k])
    decreases |channels|
  {
    if |channels| == 0 || !ChannelAccepted(model, channels[0]) then []
    else
      var rest := ChannelBindings(model, channels[1..]);
      ConsBinding(model, channels, rest);
      [BindingOf(model, channels[0])] + rest
  }

  lemma ConsBinding(model: CModel, channels: seq<string>, rest: seq<Binding>)
    requires |channels| > 0 && ChannelAccepted(model, channels[0])
    requires ReachedChannelsHaveComma(model, channels)
    requires Ids(rest) == ResolvedPrefix(model, channels[1..])
    requires forall k :: 0 <= k < |rest| ==> ChannelAccepted(model, channels[1..][k]) && rest[k] == BindingOf(model, channels[1..][k])
    ensures var bs := [BindingOf(model, channels[0])] + rest;
      && Ids(bs) == ResolvedPrefix(model, channels)
      && forall k :: 0 <= k < |bs| ==> ChannelAccepted(model, channels[k]) && bs[k] == BindingOf(model, channels[k])
  {
    var bs := [BindingOf(model, channels[0])] + rest;
    assert Ids(bs) == [AcceptedId(model, channels[0])] + Ids(rest);
    forall k | 0 <= k < |bs|
      ensures ChannelAccepted(model, channels[k]) && bs[k] == BindingOf(model, channels[k])
    {
      if k > 0 {
        assert channels[k] == channels[1..][k - 1];
      }
    }
  }

  /** The channel loop's registry is the accepted channels' bindings registered in order. */
  lemma {:induction false} ResolveChannelsRegisters(model: CModel, channels: seq<string>, reg: Registry)
    requires ReachedChannelsHaveComma(model, channels)
    ensures ResolveChannels(model, channels, reg).registry == RegisterAll(reg, ChannelBindings(model, channels))
    decreases |channels|
  {
    if |channels| > 0 && ChannelAccepted(model, channels[0]) {
      var b := BindingOf(model, channels[0]);
      var reg' := Register(reg, b.id, b.name, b.kind);
      ResolveChannelsRegisters(model, channels[1..], reg');
      assert ([b] + ChannelBindings(model, channels[1..]))[1..] == ChannelBindings(model, channels[1..]);
    }
  }

  /**
   * The most recent resolution wins: a collected id carries the name and kind
   * of the last channel of the item that resolved to it.
   */
  lemma ResolveChannelsLastWins(model: CModel, channels: seq<string>, reg: Registry)
    requires ReachedChannelsHaveComma(model, channels)
    ensures var o := ResolveChannels(model, channels, reg);
      forall k :: 0 <= k < |o.data| && LastOccurrence(o.data, k) ==>
        HasComma(channels[k])
        && Records(o.registry, o.data[k], GetSBMLId(model, channels[k]).name, GetSBMLId(model, channels[k]).kind)
  {
    var bs := ChannelBindings(model, channels);
    ResolveChannelsRegisters(model, channels, reg);
    RegisterAllLastWins(reg, bs);
  }

  /**
   * Channels after the first rejected one are never resolved: whatever
   * follows them, with or without a comma, changes neither the outcome nor
   * the registry.
   */
  lemma {:induction false} UnreachedChannelsIgnored(model: CModel, channels: seq<string>, later: seq<string>, reg: Registry)
    requires ReachedChannelsHaveComma(model, channels)
    requires |ResolvedPrefix(model, channels)| < |channels|
    ensures ReachedChannelsHaveComma(model, channels + later)
    ensures ResolveChannels(model, channels + later, reg) == ResolveChannels(model, channels, reg)
    decreases |channels|
  {
    ReachedCommaExtends(model, channels, later);
    var all := channels + later;
    assert all[0] == channels[0];
    var r := GetSBMLId(model, channels[0]);
    if Accepted(r) {
      assert all[1..] == channels[1..] + later;
      UnreachedChannelsIgnored(model, channels[1..], later, Register(reg, r.sbmlId.value, r.name, r.kind));
    }
  }

  lemma {:induction false} ReachedCommaExtends(model: CModel, channels: seq<string>, later: seq<string>)
    requires ReachedChannelsHaveComma(model, channels)
    requires |ResolvedPrefix(model, channels)| < |channels|
    ensures ReachedChannelsHaveComma(model, channels + later)
    decreases |channels|
  {
    var all := channels + later;
    assert all[0] == channels[0];
    if Accepted(GetSBMLId(model, channels[0])) {
      assert all[1..] == channels[1..] + later;
      ReachedCommaExtends(model, channels[1..], later);
    }
  }

  /** The curve an item yields from its channel loop: only when `addItems` survived and there were two ids. */
  function ItemCurve(o: ItemOutcome): Option<Curve>
  {
    if o.addItems && |o.data| == 2 then Some(Curve(o.data[0], o.data[1])) else None
  }

  /**
   * The curve of a plot item, stated without the registry: there is one
   * exactly when the item has two channels and both are accepted, with the
   * first channel's id as X and the second's as Y.
   */
  function CurveOf(model: CModel, item: PlotItem): (c: Option<Curve>)
    requires ReachedChannelsHaveComma(model, item.channels)
    ensures c.Some? <==>
      |item.channels| == 2 && ChannelAccepted(model, item.channels[0]) && ChannelAccepted(model, item.channels[1])
    ensures c.Some? ==>
      c.value == Curve(AcceptedId(model, item.channels[0]), AcceptedId(model, item.channels[1]))
  {
    var d := ResolvedPrefix(model, item.channels);
    ResolvedPrefixMeaning(model, item.channels);
    if |d| == |item.channels| == 2 then Some(Curve(d[0], d[1])) else None
  }

  predicate ItemsWellFormed(model: CModel, items: seq<PlotItem>)
  {
    forall j :: 0 <= j < |items| ==> ReachedChannelsHaveComma(model, items[j].channels)
  }

  lemma ItemsWellFormedTail(model: CModel, items: seq<PlotItem>)
    requires |items| > 0 && ItemsWellFormed(model, items)
    ensures ItemsWellFormed(model, items[1..])
  {
    assert forall j :: 1 <= j < |items| ==> items[1..][j - 1] == items[j];
  }

  /** The curves of `items`, in item order, leaving out the items that yield none. */
  function Curves(model: CModel, items: seq<PlotItem>): (cs: seq<Curve>)
    requires ItemsWellFormed(model, items)
    ensures |cs| <= |items|
    decreases |items|
  {
    if |items| == 0 then []
    else
      ItemsWellFormedTail(model, items);
      var rest := Curves(model, items[1..]);
      match CurveOf(model, items[0])
      case Some(c) => [c] + rest
      case None => rest
  }

  /**
   * Every curve comes from one of the items, and both of its ids are neither
   * null nor blank.
   */
  lemma {:induction false} CurvesMeaning(model: CModel, items: seq<PlotItem>)
    requires ItemsWellFormed(model, items)
    ensures forall c :: c in Curves(model, items) ==> exists j :: 0 <= j < |items| && CurveOf(model, items[j]) == Some(c)
    ensures forall c :: c in Curves(model, items) ==>
      !IsNullOrWhiteSpace(Some(c.xDataReference)) && !IsNullOrWhiteSpace(Some(c.yDataReference))
    decreases |items|
  {
    if |items| > 0 {
      ItemsWellFormedTail(model, items);
      CurvesMeaning(model, items[1..]);
      forall c | c in Curves(model, items)
        ensures exists j :: 0 <= j < |items| && CurveOf(model, items[j]) == Some(c)
        ensures !IsNullOrWhiteSpace(Some(c.xDataReference)) && !IsNullOrWhiteSpace(Some(c.yDataReference))
      {
        if CurveOf(model, items[0]) == Some(c) {
          assert c.xDataReference == AcceptedId(model, items[0].channels[0]);
          assert c.yDataReference == AcceptedId(model, items[0].channels[1]);
        } else {
          assert c in Curves(model, items[1..]);
          var j :| 0 <= j < |items[1..]| && CurveOf(model, items[1..][j]) == Some(c);
          assert items[1..][j] == items[j + 1];
        }
      }
    }
  }

  /** The curve each item yields, or `None`, position by position. */
  function ItemCurves(model: CModel, items: seq<PlotItem>): (os: seq<Option<Curve>>)
    requires ItemsWellFormed(model, items)
    ensures |os| == |items| && forall j :: 0 <= j < |items| ==> os[j] == CurveOf(model, items[j])
  {
    seq(|items|, j requires 0 <= j < |items| => CurveOf(model, items[j]))
  }

  lemma {:induction false} CurvesAreSomes(model: CModel, items: seq<PlotItem>)
    requires ItemsWellFormed(model, items)
    ensures Curves(model, items) == Somes(ItemCurves(model, items))
    decreases |items|
  {
    if |items| > 0 {
      ItemsWellFormedTail(model, items);
      CurvesAreSomes(model, items[1..]);
      assert ItemCurves(model, items)[1..] == ItemCurves(model, items[1..]);
    }
  }

  /**
   * The curves are those of the items that yield one, each once and in item
   * order: `f` sends the k-th curve to a strictly later item than the one
   * before, and no item that yields a curve is skipped.
   */
  lemma CurvesInItemOrder(model: CModel, items: seq<PlotItem>)
    requires ItemsWellFormed(model, items)
    ensures exists f :: Picks(ItemCurves(model, items), Curves(model, items), f)
    ensures forall j :: 0 <= j < |items| && CurveOf(model, items[j]).Some? ==>
      CurveOf(model, items[j]).value in Curves(model, items)
  {
    CurvesAreSomes(model, items);
    SomesPicks(ItemCurves(model, items));
    var f :| Picks(ItemCurves(model, items), Curves(model, items), f);
    forall j | 0 <= j < |items| && CurveOf(model, items[j]).Some?
      ensures CurveOf(model, items[j]).value in Curves(model, items)
    {
      PicksAll(ItemCurves(model, items), Curves(model, items), f, j);
    }
  }

  /** The ids every item's channel loop collects, item after item. */
  function ResolvedIds(model: CModel, items: seq<PlotItem>): seq<string>
    requires ItemsWellFormed(model, items)
    decreases |items|
  {
    if |items| == 0 then []
    else ResolvedPrefix(model, items[0].channels) + ResolvedIds(model, items[1..])
  }

  /** The bindings every item's channel loop records, item after item. */
  function ItemBindings(model: CModel, items: seq<PlotItem>): (bs: seq<Binding>)
    requires ItemsWellFormed(model, items)
    ensures Ids(bs) == ResolvedIds(model, items)
    decreases |items|
  {
    if |items| == 0 then []
    else
      ItemsWellFormedTail(model, items);
      var here := ChannelBindings(model, items[0].channels);
      var rest := ItemBindings(model, items[1..]);
      IdsConcat(here, rest);
      here + rest
  }

  /** All the ids the curves refer to. */
  ghost predicate CurveIdsIn(curves: seq<Curve>, ids: seq<string>)
  {
    forall c :: c in curves ==> c.xDataReference in ids && c.yDataReference in ids
  }

  datatype Translation = Translation(registry: Registry, curves: seq<Curve>)

  /** The curve kept from an item's channel loop is the registry-free `CurveOf`. */
  lemma ItemCurveIsCurveOf(model: CModel, item: PlotItem, reg: Registry)
    requires ReachedChannelsHaveComma(model, item.channels)
    ensures ItemCurve(ResolveChannels(model, item.channels, reg)) == CurveOf(model, item)
  {
  }

  /**
   * The item loop of `CreatePlot`. Its curves do not depend on the registry,
   * and `dataIds` gains every id collected, including those of items that
   * yield no curve.
   */
  function TranslateItems(model: CModel, items: seq<PlotItem>, reg: Registry): (t: Translation)
    requires ItemsWellFormed(model, items)
    ensures t.curves == Curves(model, items)
    ensures t.registry.dataIds == AppendNew(reg.dataIds, ResolvedIds(model, items))
    decreases |items|
  {
    if |items| == 0 then Translation(reg, [])
    else
      var o := ResolveChannels(model, items[0].channels, reg);
      var rest := TranslateItems(model, items[1..], o.registry);
      AppendNewConcat(reg.dataIds, o.data, ResolvedIds(model, items[1..]));
      ItemCurveIsCurveOf(model, items[0], reg);
      match ItemCurve(o)
      case Some(c) => Translation(rest.registry, [c] + rest.curves)
      case None => Translation(rest.registry, rest.curves)
  }

  /** The item loop's registry is the items' bindings registered in order. */
  lemma {:induction false} TranslateItemsRegisters(model: CModel, items: seq<PlotItem>, reg: Registry)
    requires ItemsWellFormed(model, items)
    ensures TranslateItems(model, items, reg).registry == RegisterAll(reg, ItemBindings(model, items))
    decreases |items|
  {
    if |items| > 0 {
      ItemsWellFormedTail(model, items);
      var o := ResolveChannels(model, items[0].channels, reg);
      ResolveChannelsRegisters(model, items[0].channels, reg);
      TranslateItemsRegisters(model, items[1..], o.registry);
      RegisterAllConcat(reg, ChannelBindings(model, items[0].channels), ItemBindings(model, items[1..]));
      assert TranslateItems(model, items, reg).registry == TranslateItems(model, items[1..], o.registry).registry;
    }
  }

  lemma {:induction false} TranslateItemsKeepsValid(model: CModel, items: seq<PlotItem>, reg: Registry)
    requires ItemsWellFormed(model, items)
    ensures Valid(reg) ==> Valid(TranslateItems(model, items, reg).registry)
    decreases |items|
  {
    if |items| > 0 && Valid(reg) {
      ResolveChannelsKeepsValid(model, items[0].channels, reg);
      TranslateItemsKeepsValid(model, items[1..], ResolveChannels(model, items[0].channels, reg).registry);
    }
  }

  /** Every id a curve refers to is one of the ids the channel loops collect. */
  lemma {:induction false} CurveIdsResolved(model: CModel, items: seq<PlotItem>)
    requires ItemsWellFormed(model, items)
    ensures CurveIdsIn(Curves(model, items), ResolvedIds(model, items))
    decreases |items|
  {
    if |items| > 0 {
      ItemsWellFormedTail(model, items);
      CurveIdsResolved(model, items[1..]);
      var here := ResolvedPrefix(model, items[0].channels);
      var later := ResolvedIds(model, items[1..]);
      assert ResolvedIds(model, items) == here + later;
      match CurveOf(model, items[0])
      case Some(c) =>
        CurveIdsFromPrefix(model, items[0]);
        assert Curves(model, items) == [c] + Curves(model, items[1..]);
      case None =>
        assert Curves(model, items) == Curves(model, items[1..]);
    }
  }

  /** An item's curve refers to ids its own channel loop collects. */
  lemma CurveIdsFromPrefix(model: CModel, item: PlotItem)
    requires ReachedChannelsHaveComma(model, item.channels)
    ensures CurveOf(model, item).Some? ==>
      var d := ResolvedPrefix(model, item.channels);
      var c := CurveOf(model, item).value;
      c.xDataReference in d && c.yDataReference in d
  {
  }

  /** Every id a curve refers to is in `dataIds` once the item loop is over. */
  lemma TranslateItemsRegistersCurveIds(model: CModel, items: seq<PlotItem>, reg: Registry)
    requires ItemsWellFormed(model, items)
    ensures var t := TranslateItems(model, items, reg); CurveIdsIn(t.curves, t.registry.dataIds)
  {
    CurveIdsResolved(model, items);
  }

  datatype PlotTranslation = PlotTranslation(registry: Registry, plot: Plot2D)

  /** The plot a specification becomes, stated without the registry. */
  function PlotOf(model: CModel, spec: PlotSpecification): Plot2D
    requires ItemsWellFormed(model, spec.items)
  {
    Plot2D(spec.title, spec.logX, spec.logY, Curves(model, spec.items))
  }

  /**
   * `CreatePlot`: title and log flags are copied, there are at most as many
   * curves as items, and every curve's ids are registered.
   */
  function CreatePlot(model: CModel, spec: PlotSpecification, reg: Registry): (p: PlotTranslation)
    requires ItemsWellFormed(model, spec.items)
    ensures p.plot == PlotOf(model, spec)
    ensures p.plot.name == spec.title && p.plot.logX == spec.logX && p.plot.logY == spec.logY
    ensures |p.plot.curves| <= |spec.items|
    ensures Valid(reg) ==> Valid(p.registry)
    ensures p.registry.dataIds == AppendNew(reg.dataIds, ResolvedIds(model, spec.items))
    ensures CurveIdsIn(p.plot.curves, p.registry.dataIds)
  {
    var t := TranslateItems(model, spec.items, reg);
    TranslateItemsKeepsValid(model, spec.items, reg);
    TranslateItemsRegistersCurveIds(model, spec.items, reg);
    PlotTranslation(t.registry, Plot2D(spec.title, spec.logX, spec.logY, t.curves))
  }

  predicate PlotsWellFormed(model: CModel, plots: seq<PlotSpecification>)
  {
    forall i :: 0 <= i < |plots| ==> ItemsWellFormed(model, plots[i].items)
  }

  /** The translated plots that have at least one curve, in definition order. */
  function NonEmptyPlots(model: CModel, plots: seq<PlotSpecification>): (ps: seq<Plot2D>)
    requires PlotsWellFormed(model, plots)
    ensures |ps| <= |plots|
    ensures forall p :: p in ps ==> |p.curves| > 0
    ensures forall p :: p in ps ==> exists i :: 0 <= i < |plots| && p == PlotOf(model, plots[i])
    decreases |plots|
  {
    if |plots| == 0 then []
    else
      var rest := NonEmptyPlots(model, plots[1..]);
      assert forall i :: 1 <= i < |plots| ==> plots[1..][i - 1] == plots[i];
      var p := PlotOf(model, plots[0]);
      if |p.curves| > 0 then [p] + rest else rest
  }

  /** The plot each specification becomes when it has a curve, or `None`. */
  function KeptPlots(model: CModel, plots: seq<PlotSpecification>): (os: seq<Option<Plot2D>>)
    requires PlotsWellFormed(model, plots)
    ensures |os| == |plots|
    ensures forall i :: 0 <= i < |plots| ==>
      os[i] == if |PlotOf(model, plots[i]).curves| > 0 then Some(PlotOf(model, plots[i])) else None
  {
    seq(|plots|, i requires 0 <= i < |plots| =>
      if |PlotOf(model, plots[i]).curves| > 0 then Some(PlotOf(model, plots[i])) else None)
  }

  lemma {:induction false} NonEmptyPlotsAreSomes(model: CModel, plots: seq<PlotSpecification>)
    requires PlotsWellFormed(model, plots)
    ensures NonEmptyPlots(model, plots) == Somes(KeptPlots(model, plots))
    decreases |plots|
  {
    if |plots| > 0 {
      assert PlotsWellFormed(model, plots[1..]) by {
        assert forall i :: 1 <= i < |plots| ==> plots[1..][i - 1] == plots[i];
      }
      NonEmptyPlotsAreSomes(model, plots[1..]);
      assert KeptPlots(model, plots)[1..] == KeptPlots(model, plots[1..]);
    }
  }

  /**
   * The outputs are the translated plots that have a curve, each once and in
   * definition order, and no such plot is dropped.
   */
  lemma PlotsInDefinitionOrder(model: CModel, plots: seq<PlotSpecification>)
    requires PlotsWellFormed(model, plots)
    ensures exists f :: Picks(KeptPlots(model, plots), NonEmptyPlots(model, plots), f)
    ensures forall i :: 0 <= i < |plots| && |PlotOf(model, plots[i]).curves| > 0 ==>
      PlotOf(model, plots[i]) in NonEmptyPlots(model, plots)
  {
    NonEmptyPlotsAreSomes(model, plots);
    SomesPicks(KeptPlots(model, plots));
    var f :| Picks(KeptPlots(model, plots), NonEmptyPlots(model, plots), f);
    forall i | 0 <= i < |plots| && |PlotOf(model, plots[i]).curves| > 0
      ensures PlotOf(model, plots[i]) in NonEmptyPlots(model, plots)
    {
      PicksAll(KeptPlots(model, plots), NonEmptyPlots(model, plots), f, i);
    }
  }

  /** The ids collected over all plots. */
  function ResolvedIdsOfPlots(model: CModel, plots: seq<PlotSpecification>): seq<string>
    requires PlotsWellFormed(model, plots)
    decreases |plots|
  {
    if |plots| == 0 then []
    else ResolvedIds(model, plots[0].items) + ResolvedIdsOfPlots(model, plots[1..])
  }

  /** The bindings recorded over all plots. */
  function PlotBindings(model: CModel, plots: seq<PlotSpecification>): (bs: seq<Binding>)
    requires PlotsWellFormed(model, plots)
    ensures Ids(bs) == ResolvedIdsOfPlots(model, plots)
    decreases |plots|
  {
    if |plots| == 0 then []
    else
      var here := ItemBindings(model, plots[0].items);
      var rest := PlotBindings(model, plots[1..]);
      IdsConcat(here, rest);
      here + rest
  }

  ghost predicate PlotIdsIn(plots: seq<Plot2D>, ids: seq<string>)
  {
    forall p :: p in plots ==> CurveIdsIn(p.curves, ids)
  }

  datatype PlotsTranslation = PlotsTranslation(registry: Registry, outputs: seq<Plot2D>)

  /**
   * The plot loop of `Convert`: every plot is translated in order, with the
   * registry threaded through, and kept only when it has a curve.
   */
  function TranslatePlots(model: CModel, plots: seq<PlotSpecification>, reg: Registry): (t: PlotsTranslation)
    requires PlotsWellFormed(model, plots)
    ensures t.outputs == NonEmptyPlots(model, plots)
    ensures Valid(reg) ==> Valid(t.registry)
    ensures t.registry.dataIds == AppendNew(reg.dataIds, ResolvedIdsOfPlots(model, plots))
    ensures PlotIdsIn(t.outputs, t.registry.dataIds)
    decreases |plots|
  {
    if |plots| == 0 then PlotsTranslation(reg, [])
    else
      var first := CreatePlot(model, plots[0], reg);
      var rest := TranslatePlots(model, plots[1..], first.registry);
      AppendNewConcat(reg.dataIds, ResolvedIds(model, plots[0].items), ResolvedIdsOfPlots(model, plots[1..]));
      assert first.registry.dataIds <= rest.registry.dataIds;
      if |first.plot.curves| > 0 then PlotsTranslation(rest.registry, [first.plot] + rest.outputs)
      else PlotsTranslation(rest.registry, rest.outputs)
  }

  /** The plot loop's registry is the plots' bindings registered in order. */
  lemma {:induction false} TranslatePlotsRegisters(model: CModel, plots: seq<PlotSpecification>, reg: Registry)
    requires PlotsWellFormed(model, plots)
    ensures TranslatePlots(model, plots, reg).registry == RegisterAll(reg, PlotBindings(model, plots))
    decreases |plots|
  {
    if |plots| > 0 {
      var first := CreatePlot(model, plots[0], reg);
      TranslateItemsRegisters(model, plots[0].items, reg);
      TranslatePlotsRegisters(model, plots[1..], first.registry);
      RegisterAllConcat(reg, ItemBindings(model, plots[0].items), PlotBindings(model, plots[1..]));
      assert TranslatePlots(model, plots, reg).registry == TranslatePlots(model, plots[1..], first.registry).registry;
    }
  }

  /**
   * `names` and `types` after the plot loop: every id collected carries the
   * name and kind of its most recent resolution, the dictionaries gain
   * exactly the collected ids, and an id not collected keeps its entries.
   */
  lemma TranslatePlotsRecords(model: CModel, plots: seq<PlotSpecification>, reg: Registry)
    requires PlotsWellFormed(model, plots)
    ensures var bs := PlotBindings(model, plots); var r := TranslatePlots(model, plots, reg).registry;
      && (forall k :: 0 <= k < |bs| && LastOccurrence(Ids(bs), k) ==> Records(r, bs[k].id, bs[k].name, bs[k].kind))
      && (forall x :: x in r.names <==> x in reg.names || x in ResolvedIdsOfPlots(model, plots))
      && (forall x :: x in r.types <==> x in reg.types || x in ResolvedIdsOfPlots(model, plots))
      && (forall x :: x in reg.names && x !in ResolvedIdsOfPlots(model, plots) ==> r.names[x] == reg.names[x])
      && (forall x :: x in reg.types && x !in ResolvedIdsOfPlots(model, plots) ==> r.types[x] == reg.types[x])
  {
    TranslatePlotsRegisters(model, plots, reg);
    RegisterAllLastWins(reg, PlotBindings(model, plots));
  }

  /**
   * A rejected second channel drops the item's curve, yet the first channel's
   * id stays registered: the registry can hold ids no curve refers to.
   */
  lemma DiscardedItemStillRegistered(model: CModel, item: PlotItem, reg: Registry)
    requires |item.channels| == 2
    requires ChannelAccepted(model, item.channels[0])
    requires HasComma(item.channels[1]) && !ChannelAccepted(model, item.channels[1])
    ensures ReachedChannelsHaveComma(model, item.channels)
    ensures CurveOf(model, item) == None
    ensures AcceptedId(model, item.channels[0]) in ResolveChannels(model, item.channels, reg).registry.dataIds
  {
    assert item.channels[1..][0] == item.channels[1];
  }
}

=== FILE: registry.dfy ===
/**
 * The converter's three bookkeeping fields: `dataIds`, the SBML ids seen in
 * plots in first-seen order, and the `names` and `types` dictionaries keyed by
 * those ids.
 */
module Registry {
  import opened SedML

  datatype Registry = Registry(dataIds: seq<string>, names: map<string, string>, types: map<string, VariableType>)

  /** The fields of a freshly constructed converter. */
  const Empty := Registry([], map[], map[])

  predicate NoDuplicates<T(==)>(s: seq<T>)
  {
    forall i, j :: 0 <= i < j < |s| ==> s[i] != s[j]
  }

  /** The three fields describe the same ids and `dataIds` lists each of them once. */
  ghost predicate Valid(reg: Registry)
  {
    && NoDuplicates(reg.dataIds)
    && (forall x :: x in reg.names <==> x in reg.dataIds)
    && (forall x :: x in reg.types <==> x in reg.dataIds)
  }

  /** `ids` followed by every id of `xs` it does not hold yet, in the order first seen. */
  function AppendNew(ids: seq<string>, xs: seq<string>): (r: seq<string>)
    ensures ids <= r
    ensures forall x :: x in r <==> x in ids || x in xs
    ensures NoDuplicates(ids) ==> NoDuplicates(r)
    decreases |xs|
  {
    if |xs| == 0 then ids
    else AppendNew(if xs[0] in ids then ids else ids + [xs[0]], xs[1..])
  }

  /** The position of the first occurrence of `x` in `xs`. */
  function FirstIndex(xs: seq<string>, x: string): (k: nat)
    requires x in xs
    ensures k < |xs| && xs[k] == x && x !in xs[..k]
  {
    if xs[0] == x then 0 else 1 + FirstIndex(xs[1..], x)
  }

  /** What `AppendNew` adds after `ids`: ids of `xs` that `ids` lacks, in the order of their first occurrence in `xs`. */
  predicate AppendedInOrder(ids: seq<string>, xs: seq<string>, r: seq<string>)
    requires ids <= r
  {
    && (forall p :: |ids| <= p < |r| ==> r[p] in xs && r[p] !in ids)
    && (forall p, q :: |ids| <= p < q < |r| && r[p] in xs && r[q] in xs ==> FirstIndex(xs, r[p]) < FirstIndex(xs, r[q]))
  }

  /**
   * The ids appended are exactly the new ones, each once, in first-seen
   * order; with the membership clause of `AppendNew` this fixes the result.
   */
  lemma {:induction false} AppendNewOrder(ids: seq<string>, xs: seq<string>)
    ensures AppendedInOrder(ids, xs, AppendNew(ids, xs))
    decreases |xs|
  {
    if |xs| > 0 {
      var ids' := if xs[0] in ids then ids else ids + [xs[0]];
      var tail := xs[1..];
      var r := AppendNew(ids, xs);
      AppendNewOrder(ids', tail);
      assert r == AppendNew(ids', tail);
      forall p | |ids| <= p < |r|
        ensures r[p] in xs && r[p] !in ids
      {
        if p >= |ids'| {
          assert r[p] in tail;
        } else {
          assert r[p] == xs[0];
        }
      }
      forall p, q | |ids| <= p < q < |r| && r[p] in xs && r[q] in xs
        ensures FirstIndex(xs, r[p]) < FirstIndex(xs, r[q])
      {
        assert r[q] != xs[0] by {
          assert q >= |ids'|;
          assert r[q] !in ids';
        }
        if p >= |ids'| {
          assert r[p] != xs[0] by {
            assert r[p] !in ids';
          }
        }
      }
    }
  }

  /** Appending in two batches is appending their concatenation. */
  lemma {:induction false} AppendNewConcat(ids: seq<string>, xs: seq<string>, ys: seq<string>)
    ensures AppendNew(AppendNew(ids, xs), ys) == AppendNew(ids, xs + ys)
    decreases |xs|
  {
    if |xs| == 0 {
      assert xs + ys == ys;
    } else {
      assert (xs + ys)[0] == xs[0];
      assert (xs + ys)[1..] == xs[1..] + ys;
      AppendNewConcat(if xs[0] in ids then ids else ids + [xs[0]], xs[1..], ys);
    }
  }

  /**
   * The bookkeeping for one resolved channel: the id is appended unless it is
   * already listed, and its name and type are overwritten, so the most recent
   * resolution wins.
   */
  function Register(reg: Registry, id: string, name: string, kind: VariableType): (r: Registry)
    ensures Valid(reg) ==> Valid(r)
    ensures r.dataIds == AppendNew(reg.dataIds, [id])
    ensures id in r.names && r.names[id] == name
    ensures id in r.types && r.types[id] == kind
    ensures r.names.Keys == reg.names.Keys + {id} && r.types.Keys == reg.types.Keys + {id}
    ensures forall x :: x in reg.names && x != id ==> r.names[x] == reg.names[x]
    ensures forall x :: x in reg.types && x != id ==> r.types[x] == reg.types[x]
  {
    Registry(
      if id in reg.dataIds then reg.dataIds else reg.dataIds + [id],
      reg.names[id := name],
      reg.types[id := kind])
  }

  /** One resolution to record: an id with the name and kind it resolved to. */
  datatype Binding = Binding(id: string, name: string, kind: VariableType)

  function Ids(bs: seq<Binding>): (ids: seq<string>)
    ensures |ids| == |bs| && forall k :: 0 <= k < |bs| ==> ids[k] == bs[k].id
  {
    seq(|bs|, k requires 0 <= k < |bs| => bs[k].id)
  }

  lemma IdsConcat(bs: seq<Binding>, cs: seq<Binding>)
    ensures Ids(bs + cs) == Ids(bs) + Ids(cs)
  {
    assert forall k :: |bs| <= k < |bs + cs| ==> (bs + cs)[k] == cs[k - |bs|];
  }

  /** No occurrence of `s[k]` comes after position `k`. */
  predicate LastOccurrence(s: seq<string>, k: int)
    requires 0 <= k < |s|
  {
    forall j :: k < j < |s| ==> s[j] != s[k]
  }

  /** The registry holds `name` and `kind` for `id`. */
  ghost predicate Records(reg: Registry, id: string, name: string, kind: VariableType)
  {
    id in reg.names && reg.names[id] == name && id in reg.types && reg.types[id] == kind
  }

  /**
   * `Register` for each binding in turn: `dataIds` gains the new ids in
   * first-seen order, the dictionaries gain exactly the bound ids, and an id
   * bound to nothing keeps its entries.
   */
  function RegisterAll(reg: Registry, bs: seq<Binding>): (r: Registry)
    ensures Valid(reg) ==> Valid(r)
    ensures r.dataIds == AppendNew(reg.dataIds, Ids(bs))
    ensures forall x :: x in r.names <==> x in reg.names || x in Ids(bs)
    ensures forall x :: x in r.types <==> x in reg.types || x in Ids(bs)
    ensures forall x :: x in reg.names && x !in Ids(bs) ==> r.names[x] == reg.names[x]
    ensures forall x :: x in reg.types && x !in Ids(bs) ==> r.types[x] == reg.types[x]
    decreases |bs|
  {
    if |bs| == 0 then reg
    else
      assert Ids(bs) == [bs[0].id] + Ids(bs[1..]);
      AppendNewConcat(reg.dataIds, [bs[0].id], Ids(bs[1..]));
      RegisterAll(Register(reg, bs[0].id, bs[0].name, bs[0].kind), bs[1..])
  }

  /** Registering two batches one after the other is registering their concatenation. */
  lemma {:induction false} RegisterAllConcat(reg: Registry, bs: seq<Binding>, cs: seq<Binding>)
    ensures RegisterAll(RegisterAll(reg, bs), cs) == RegisterAll(reg, bs + cs)
    decreases |bs|
  {
    if |bs| == 0 {
      assert bs + cs == cs;
    } else {
      assert (bs + cs)[0] == bs[0];
      assert (bs + cs)[1..] == bs[1..] + cs;
      RegisterAllConcat(Register(reg, bs[0].id, bs[0].name, bs[0].kind), bs[1..], cs);
    }
  }

  /**
   * The most recent resolution wins: every id carries the name and kind of
   * the last binding for it.
   */
  lemma {:induction false} RegisterAllLastWins(reg: Registry, bs: seq<Binding>)
    ensures forall k :: 0 <= k < |bs| && LastOccurrence(Ids(bs), k) ==>
      Records(RegisterAll(reg, bs), bs[k].id, bs[k].name, bs[k].kind)
    decreases |bs|
  {
    if |bs| > 0 {
      var reg' := Register(reg, bs[0].id, bs[0].name, bs[0].kind);
      RegisterAllLastWins(reg', bs[1..]);
      forall k | 0 <= k < |bs| && LastOccurrence(Ids(bs), k)
        ensures Records(RegisterAll(reg, bs), bs[k].id, bs[k].name, bs[k].kind)
      {
        LastBindingInTail(bs, k);
        if k == 0 {
          FirstBindingKept(reg, bs);
        }
      }
    }
  }

  /** A last occurrence stays one in the tail; at the head it means the id is not bound again. */
  lemma LastBindingInTail(bs: seq<Binding>, k: int)
    requires 0 <= k < |bs| && LastOccurrence(Ids(bs), k)
    ensures k == 0 ==> bs[0].id !in Ids(bs[1..])
    ensures k > 0 ==> bs[1..][k - 1] == bs[k] && LastOccurrence(Ids(bs[1..]), k - 1)
  {
    var ids := Ids(bs);
    var tail := Ids(bs[1..]);
    assert forall j :: 0 <= j < |tail| ==> tail[j] == ids[j + 1];
  }

  /** A binding whose id is not bound again is what the registry keeps. */
  lemma FirstBindingKept(reg: Registry, bs: seq<Binding>)
    requires |bs| > 0 && bs[0].id !in Ids(bs[1..])
    ensures Records(RegisterAll(reg, bs), bs[0].id, bs[0].name, bs[0].kind)
  {
    var reg' := Register(reg, bs[0].id, bs[0].name, bs[0].kind);
    assert RegisterAll(reg, bs) == RegisterAll(reg', bs[1..]);
    assert Records(reg', bs[0].id, bs[0].name, bs[0].kind);
  }

  /**
   * Registering an id twice leaves one `dataIds` entry for it, at its first
   * position, while its name and type are those of the second registration.
   */
  lemma RegisterTwice(reg: Registry, id: string, name1: string, kind1: VariableType, name2: string, kind2: VariableType)
    requires NoDuplicates(reg.dataIds)
    ensures var r := Register(Register(reg, id, name1, kind1), id, name2, kind2);
      && r.dataIds == Register(reg, id, name1, kind1).dataIds
      && (exists i :: 0 <= i < |r.dataIds| && r.dataIds[i] == id && forall j :: 0 <= j < |r.dataIds| && j != i ==> r.dataIds[j] != id)
      && r.names[id] == name2 && r.types[id] == kind2
  {
    var r1 := Register(reg, id, name1, kind1);
    var r := Register(r1, id, name2, kind2);
    assert id in r1.dataIds && NoDuplicates(r1.dataIds);
    assert r.dataIds == r1.dataIds;
    var i :| 0 <= i < |r1.dataIds| && r1.dataIds[i] == id;
    assert forall j :: 0 <= j < |r.dataIds| && j != i ==> r.dataIds[j] != id;
  }
}

=== FILE: resolver.dfy ===
/**
 * `GetSBMLId`: resolving a plot channel to the SBML id, kind and display name
 * of the model element it refers to.
 *
 * A channel reads "<object path>,<attribute>": the part before the last comma
 * is the CN of a model element, the part after it names the attribute that is
 * plotted (a concentration, a rate, a particle number, ...).
 */
module Resolver {
  import opened Wrappers
  import opened Text
  import opened Copasi
  import opened SedML

  /** The three results of `GetSBMLId`: the returned id (null = `None`) and the `type` and `name` out-parameters. */
  datatype Resolution = Resolution(sbmlId: Option<string>, kind: VariableType, name: string)

  /** What `GetSBMLId` reports for a channel it does not resolve. */
  const Unresolved := Resolution(None, Unknown, "unknown")

  /** What it reports for the model's own CN: the simulation time. */
  const TimeResolution := Resolution(Some("time"), Time, "Time")

  predicate HasComma(channel: string)
  {
    ',' in channel
  }

  /** The part of the channel before its last comma. */
  function ObjectPath(channel: string): (p: string)
    requires HasComma(channel)
    ensures |p| < |channel| && channel[|p|] == ',' && p == channel[..|p|]
  {
    channel[..LastIndexOf(channel, ',')]
  }

  /** The part of the channel after its last comma; it holds no comma itself. */
  function AttributeSuffix(channel: string): (a: string)
    requires HasComma(channel)
    ensures ',' !in a
    ensures channel == ObjectPath(channel) + "," + a
  {
    var i := LastIndexOf(channel, ',');
    assert channel == channel[..i] + "," + channel[i + 1..];
    channel[i + 1..]
  }

  /** Attributes with no SBML counterpart: rates and particle numbers are never exported. */
  predicate IsDerivedQuantity(attribute: string)
  {
    EndsWith(attribute, "Rate") || EndsWith(attribute, "ParticleNumber")
  }

  /** An attribute is derived exactly when it is some text followed by "Rate" or by "ParticleNumber". */
  lemma DerivedQuantityMeaning(attribute: string)
    ensures IsDerivedQuantity(attribute) <==>
      (exists p :: p + "Rate" == attribute) || (exists p :: p + "ParticleNumber" == attribute)
  {
    EndsWithConcat(attribute, "Rate");
    EndsWithConcat(attribute, "ParticleNumber");
  }

  /** Some element of `elements` has common name `cn`. */
  predicate HasCN(elements: seq<Element>, cn: string)
  {
    exists i :: 0 <= i < |elements| && elements[i].cn == cn
  }

  /** The position of the first element whose CN is `cn`: the scan loop of each category. */
  function FindByCN(elements: seq<Element>, cn: string): (r: Option<nat>)
    ensures r.Some? ==> r.value < |elements| && elements[r.value].cn == cn
    ensures r.Some? ==> forall j :: 0 <= j < r.value ==> elements[j].cn != cn
    ensures r.None? <==> !HasCN(elements, cn)
  {
    if |elements| == 0 then None
    else if elements[0].cn == cn then Some(0)
    else
      match FindByCN(elements[1..], cn)
      case None =>
        assert forall i :: 1 <= i < |elements| ==> elements[i] == elements[1..][i - 1];
        None
      case Some(i) => Some(i + 1)
  }

  /** `r` carries the SBML id and display name of an element of `elements` whose CN is `cn`. */
  predicate IsResolutionOf(elements: seq<Element>, cn: string, r: Resolution)
  {
    exists i :: 0 <= i < |elements| && elements[i].cn == cn
      && r == Resolution(Some(elements[i].sbmlId), r.kind, elements[i].displayName)
  }

  /** The resolution one category gives `cn`, if any of its elements has that CN. */
  function LookupIn(elements: seq<Element>, cn: string, kind: VariableType): (r: Option<Resolution>)
    ensures r.None? <==> !HasCN(elements, cn)
    ensures r.Some? ==> r.value.kind == kind && IsResolutionOf(elements, cn, r.value)
  {
    match FindByCN(elements, cn)
    case Some(i) => Some(Resolution(Some(elements[i].sbmlId), kind, elements[i].displayName))
    case None => None
  }

  /** The element list of a category that is resolved by scanning the model. */
  function Category(model: CModel, kind: VariableType): seq<Element>
  {
    match kind
    case Species => model.metabolites
    case Compartment => model.compartments
    case Parameter => model.modelValues
    case Reaction => model.reactions
    case _ => []
  }

  /** The kinds found by scanning an element list, in the order they are scanned. */
  predicate IsElementKind(kind: VariableType)
  {
    kind == Species || kind == Compartment || kind == Parameter || kind == Reaction
  }

  /**
   * `GetSBMLId`: a derived quantity is never resolved; otherwise the model CN,
   * then species, compartments, global quantities and reactions are tried in
   * that order. A null id always comes with `Unknown` and the "unknown" name.
   */
  function GetSBMLId(model: CModel, channel: string): (r: Resolution)
    requires HasComma(channel)
    ensures r.sbmlId.None? <==> r.kind == Unknown
    ensures r.kind == Unknown ==> r == Unresolved
  {
    var first := ObjectPath(channel);
    var last := AttributeSuffix(channel);
    if IsDerivedQuantity(last) then Unresolved
    else if model.cn == first then TimeResolution
    else
      match LookupIn(model.metabolites, first, Species)
      case Some(r) => r
      case None =>
        match LookupIn(model.compartments, first, Compartment)
        case Some(r) => r
        case None =>
          match LookupIn(model.modelValues, first, Parameter)
          case Some(r) => r
          case None =>
            match LookupIn(model.reactions, first, Reaction)
            case Some(r) => r
            case None => Unresolved
  }

  /**
   * What a resolution says about the channel: a derived quantity is never
   * resolved, whatever its object path; `Time` is reported exactly for the
   * model's own CN; any other kind carries the id and display name of an
   * element of that category whose CN is exactly the object path.
   */
  lemma ResolutionMeaning(model: CModel, channel: string)
    requires HasComma(channel)
    ensures var r := GetSBMLId(model, channel);
      && (IsDerivedQuantity(AttributeSuffix(channel)) ==> r == Unresolved)
      && (r.kind == Time <==> !IsDerivedQuantity(AttributeSuffix(channel)) && ObjectPath(channel) == model.cn)
      && (r.kind == Time ==> r == TimeResolution)
      && (IsElementKind(r.kind) ==> IsResolutionOf(Category(model, r.kind), ObjectPath(channel), r))
  {
  }

  /**
   * First match wins: an element of an earlier category, or the model itself,
   * shadows every later category holding the same CN.
   */
  lemma ResolutionOrder(model: CModel, channel: string)
    requires HasComma(channel) && !IsDerivedQuantity(AttributeSuffix(channel))
    ensures var p, r := ObjectPath(channel), GetSBMLId(model, channel);
      && (p != model.cn && HasCN(model.metabolites, p) ==> r.kind == Species)
      && (p != model.cn && !HasCN(model.metabolites, p) && HasCN(model.compartments, p) ==> r.kind == Compartment)
      && ((p != model.cn && !HasCN(model.metabolites, p) && !HasCN(model.compartments, p)
           && HasCN(model.modelValues, p)) ==> r.kind == Parameter)
      && ((p != model.cn && !HasCN(model.metabolites, p) && !HasCN(model.compartments, p)
           && !HasCN(model.modelValues, p) && HasCN(model.reactions, p)) ==> r.kind == Reaction)
      && ((p != model.cn && !HasCN(model.metabolites, p) && !HasCN(model.compartments, p)
           && !HasCN(model.modelValues, p) && !HasCN(model.reactions, p)) ==> r == Unresolved)
  {
  }

  /*
   * An independent reading of the resolver: one lookup table of
   * (CN, resolution) entries, the model first and then each category in scan
   * order, searched for its first entry with the object path as CN.
   */

  datatype Entry = Entry(cn: string, resolution: Resolution)

  function Entries(elements: seq<Element>, kind: VariableType): (t: seq<Entry>)
    ensures |t| == |elements|
    ensures forall i :: 0 <= i < |t| ==>
      t[i] == Entry(elements[i].cn, Resolution(Some(elements[i].sbmlId), kind, elements[i].displayName))
  {
    if |elements| == 0 then []
    else
      var e := elements[0];
      [Entry(e.cn, Resolution(Some(e.sbmlId), kind, e.displayName))] + Entries(elements[1..], kind)
  }

  function LookupTable(model: CModel): seq<Entry>
  {
    [Entry(model.cn, TimeResolution)]
      + (Entries(model.metabolites, Species)
      + (Entries(model.compartments, Compartment)
      + (Entries(model.modelValues, Parameter)
      + Entries(model.reactions, Reaction))))
  }

  /** The resolution of the first entry whose CN is `cn`. */
  function FirstEntry(table: seq<Entry>, cn: string): Option<Resolution>
  {
    if |table| == 0 then None
    else if table[0].cn == cn then Some(table[0].resolution)
    else FirstEntry(table[1..], cn)
  }

  lemma {:induction false} FirstEntryAppend(a: seq<Entry>, b: seq<Entry>, cn: string)
    ensures FirstEntry(a + b, cn) == if FirstEntry(a, cn).Some? then FirstEntry(a, cn) else FirstEntry(b, cn)
  {
    if |a| > 0 {
      assert (a + b)[1..] == a[1..] + b;
      FirstEntryAppend(a[1..], b, cn);
    } else {
      assert a + b == b;
    }
  }

  lemma {:induction false} FirstEntryOfCategory(elements: seq<Element>, cn: string, kind: VariableType)
    ensures FirstEntry(Entries(elements, kind), cn) == LookupIn(elements, cn, kind)
  {
    if |elements| > 0 {
      var t := Entries(elements, kind);
      assert t[1..] == Entries(elements[1..], kind);
      FirstEntryOfCategory(elements[1..], cn, kind);
    }
  }

  /** `a`, or `b` when `a` found nothing. */
  function OrElse(a: Option<Resolution>, b: Option<Resolution>): Option<Resolution>
  {
    if a.Some? then a else b
  }

  /** Searching the table is searching the model CN, then each category in turn. */
  lemma {:induction false} LookupTableByCategory(model: CModel, p: string)
    ensures FirstEntry(LookupTable(model), p) ==
      if p == model.cn then Some(TimeResolution)
      else OrElse(LookupIn(model.metabolites, p, Species),
           OrElse(LookupIn(model.compartments, p, Compartment),
           OrElse(LookupIn(model.modelValues, p, Parameter),
                  LookupIn(model.reactions, p, Reaction))))
  {
    var s := Entries(model.metabolites, Species);
    var c := Entries(model.compartments, Compartment);
    var v := Entries(model.modelValues, Parameter);
    var x := Entries(model.reactions, Reaction);
    var head := [Entry(model.cn, TimeResolution)];
    FirstEntryAppend(head, s + (c + (v + x)), p);
    FirstEntryAppend(s, c + (v + x), p);
    FirstEntryAppend(c, v + x, p);
    FirstEntryAppend(v, x, p);
    FirstEntryOfCategory(model.metabolites, p, Species);
    FirstEntryOfCategory(model.compartments, p, Compartment);
    FirstEntryOfCategory(model.modelValues, p, Parameter);
    FirstEntryOfCategory(model.reactions, p, Reaction);
  }

  /** The scanning resolver and the table lookup agree on every channel. */
  lemma ResolverMatchesLookupTable(model: CModel, channel: string)
    requires HasComma(channel)
    ensures GetSBMLId(model, channel) ==
      if IsDerivedQuantity(AttributeSuffix(channel)) then Unresolved
      else FirstEntry(LookupTable(model), ObjectPath(channel)).GetOr(Unresolved)
  {
    LookupTableByCategory(model, ObjectPath(channel));
  }
}

=== FILE: sedml.dfy ===
/** The SED-ML document the converter builds, as the libSedML object model holds it. */
module SedML {

  /** libSedML's `VariableType`: what kind of model quantity a variable refers to. */
  datatype VariableType = Unknown | Time | Species | Compartment | Parameter | Reaction

  /** The two KiSAO algorithm choices the converter makes. */
  datatype Algorithm = DeterministicAlgorithm | StochasticAlgorithm

  /** `SBMLLanguage.GetXPath(type, id)`, kept as the symbolic pair it is computed from. */
  datatype XPath = XPath(kind: VariableType, id: string)

  /** `Path.Combine(directory, fileName)`, kept symbolic. */
  datatype FilePath = Combined(directory: string, fileName: string)

  datatype Variable = Variable(id: string, taskReference: string, target: XPath)

  datatype DataGenerator = DataGenerator(id: string, name: string, variables: seq<Variable>, math: string)

  datatype Curve = Curve(xDataReference: string, yDataReference: string)

  datatype Plot2D = Plot2D(name: string, logX: bool, logY: bool, curves: seq<Curve>)

  datatype UniformTimeCourse = UniformTimeCourse(
    id: string,
    initialTime: real,
    outputStartTime: real,
    outputEndTime: real,
    numberOfPoints: int,
    algorithm: Algorithm)

  datatype Task = Task(id: string, simulationReference: string, modelReference: string)

  /** A model reference: its id, the SBML file it points at and that file's text inlined. */
  datatype Model = Model(id: string, source: FilePath, content: string)

  /** `SedMLInfo`: the document's five lists. */
  datatype SedMLInfo = SedMLInfo(
    models: seq<Model>,
    simulations: seq<UniformTimeCourse>,
    tasks: seq<Task>,
    dataGenerators: seq<DataGenerator>,
    outputs: seq<Plot2D>)
}

=== FILE: selection.dfy ===
/**
 * Keeping the present values of a sequence of optional values, in order.
 * `Picks` says it with an index map; `Somes` computes it.
 */
module Selection {
  import opened Wrappers

  /** Each `ys[k]` is the value present at position `f[k]` of `os`. */
  ghost predicate Maps<T>(os: seq<Option<T>>, ys: seq<T>, f: seq<nat>)
  {
    |f| == |ys| && forall k :: 0 <= k < |f| ==> f[k] < |os| && os[f[k]] == Some(ys[k])
  }

  ghost predicate Increasing(f: seq<nat>)
  {
    forall k, l :: 0 <= k < l < |f| ==> f[k] < f[l]
  }

  /** Every position of `os` holding a value is in `f`. */
  ghost predicate Covers<T>(os: seq<Option<T>>, f: seq<nat>)
  {
    forall i :: 0 <= i < |os| && os[i].Some? ==> exists k :: 0 <= k < |f| && f[k] == i
  }

  /**
   * `ys` is the present values of `os`, in order: `f` maps each element of
   * `ys` to a strictly later position of `os` than the one before, holding
   * that value, and every present position of `os` is hit.
   */
  ghost predicate Picks<T>(os: seq<Option<T>>, ys: seq<T>, f: seq<nat>)
  {
    Maps(os, ys, f) && Increasing(f) && Covers(os, f)
  }

  /** The present values of `os`, in order. */
  function Somes<T>(os: seq<Option<T>>): (ys: seq<T>)
    ensures |ys| <= |os|
  {
    if |os| == 0 then []
    else if os[0].Some? then [os[0].value] + Somes(os[1..])
    else Somes(os[1..])
  }

  /** Every index, one further on. */
  function Shift(f: seq<nat>): (g: seq<nat>)
    ensures |g| == |f| && forall k :: 0 <= k < |f| ==> g[k] == f[k] + 1
  {
    seq(|f|, k requires 0 <= k < |f| => f[k] + 1)
  }

  /** `Somes` keeps exactly the present values, each once and in order. */
  lemma {:induction false} SomesPicks<T>(os: seq<Option<T>>)
    ensures exists f :: Picks(os, Somes(os), f)
    decreases |os|
  {
    if |os| == 0 {
      assert Picks<T>(os, Somes(os), []);
    } else {
      SomesPicks(os[1..]);
      var f' :| Picks(os[1..], Somes(os[1..]), f');
      if os[0].Some? {
        PicksPresent(os, Somes(os[1..]), f');
        assert Somes(os) == [os[0].value] + Somes(os[1..]);
      } else {
        PicksAbsent(os, Somes(os[1..]), f');
        assert Somes(os) == Somes(os[1..]);
      }
    }
  }

  /** A present first value goes in front, at position 0. */
  lemma PicksPresent<T>(os: seq<Option<T>>, ys: seq<T>, f: seq<nat>)
    requires |os| > 0 && os[0].Some? && Picks(os[1..], ys, f)
    ensures Picks(os, [os[0].value] + ys, [0] + Shift(f))
  {
    MapsPresent(os, ys, f);
    IncreasingPresent(f);
    CoversPresent(os, f);
  }

  lemma MapsPresent<T>(os: seq<Option<T>>, ys: seq<T>, f: seq<nat>)
    requires |os| > 0 && os[0].Some? && Maps(os[1..], ys, f)
    ensures Maps(os, [os[0].value] + ys, [0] + Shift(f))
  {
    var g := [0] + Shift(f);
    var zs := [os[0].value] + ys;
    forall k | 0 <= k < |g|
      ensures g[k] < |os| && os[g[k]] == Some(zs[k])
    {
      if k > 0 {
        assert g[k] == f[k - 1] + 1 && zs[k] == ys[k - 1];
        assert os[1..][f[k - 1]] == os[g[k]];
      }
    }
  }

  lemma IncreasingPresent(f: seq<nat>)
    requires Increasing(f)
    ensures Increasing([0] + Shift(f))
  {
    var g := [0] + Shift(f);
    forall k, l | 0 <= k < l < |g|
      ensures g[k] < g[l]
    {
      assert g[l] == f[l - 1] + 1;
      if k > 0 {
        assert g[k] == f[k - 1] + 1;
      }
    }
  }

  lemma CoversPresent<T>(os: seq<Option<T>>, f: seq<nat>)
    requires |os| > 0 && os[0].Some? && Covers(os[1..], f)
    ensures Covers(os, [0] + Shift(f))
  {
    var g := [0] + Shift(f);
    forall i | 0 <= i < |os| && os[i].Some?
      ensures exists k :: 0 <= k < |g| && g[k] == i
    {
      if i == 0 {
        assert g[0] == i;
      } else {
        assert os[1..][i - 1] == os[i];
        var k :| 0 <= k < |f| && f[k] == i - 1;
        assert g[k + 1] == i;
      }
    }
  }

  /** An absent first value is skipped. */
  lemma PicksAbsent<T>(os: seq<Option<T>>, ys: seq<T>, f: seq<nat>)
    requires |os| > 0 && os[0].None? && Picks(os[1..], ys, f)
    ensures Picks(os, ys, Shift(f))
  {
    var g := Shift(f);
    forall k, l | 0 <= k < l < |g|
      ensures g[k] < g[l]
    {
      assert f[k] < f[l];
    }
    forall k | 0 <= k < |g|
      ensures g[k] < |os| && os[g[k]] == Some(ys[k])
    {
      assert os[1..][f[k]] == os[g[k]];
    }
    forall i | 0 <= i < |os| && os[i].Some?
      ensures exists k :: 0 <= k < |g| && g[k] == i
    {
      assert i > 0 && os[1..][i - 1] == os[i];
      var k :| 0 <= k < |f| && f[k] == i - 1;
      assert g[k] == i;
    }
  }

  /** A picked list holds every present value. */
  lemma PicksAll<T>(os: seq<Option<T>>, ys: seq<T>, f: seq<nat>, i: nat)
    requires Picks(os, ys, f) && i < |os| && os[i].Some?
    ensures os[i].value in ys
  {
    var k :| 0 <= k < |f| && f[k] == i;
    assert ys[k] == os[i].value;
  }
}

=== FILE: text.dfy ===
/**
 * The handful of .NET string and path operations the converter relies on,
 * written out over `string` (a sequence of Unicode scalar values).
 */
module Text {
  import opened Wrappers

  /** `s.LastIndexOf(c)` with ordinal comparison: the last position holding `c`, or -1. */
  function LastIndexOf(s: string, c: char): (r: int)
    ensures -1 <= r < |s|
    ensures r >= 0 ==> s[r] == c && forall j :: r < j < |s| ==> s[j] != c
    ensures r == -1 <==> c !in s
  {
    if |s| == 0 then -1
    else if s[|s| - 1] == c then |s| - 1
    else LastIndexOf(s[..|s| - 1], c)
  }

  /** `s.EndsWith(suffix)`, compared character by character. */
  predicate EndsWith(s: string, suffix: string)
  {
    |suffix| <= |s| && s[|s| - |suffix|..] == suffix
  }

  /** `s` ends with `suffix` exactly when it is some string followed by `suffix`. */
  lemma EndsWithConcat(s: string, suffix: string)
    ensures EndsWith(s, suffix) <==> exists p :: p + suffix == s
  {
    if EndsWith(s, suffix) {
      assert s[..|s| - |suffix|] + suffix == s;
    } else {
      forall p
        ensures p + suffix != s
      {
        ConcatEndsWith(p, suffix);
      }
    }
  }

  lemma ConcatEndsWith(p: string, suffix: string)
    ensures (p + suffix)[|p|..] == suffix
  {
  }

  /** `char.IsWhiteSpace`: the Unicode space, line and paragraph separators and the controls 9-13 and 0x85. */
  predicate IsWhiteSpace(c: char)
  {
    var n := c as int;
    || 0x09 <= n <= 0x0D
    || n == 0x20 || n == 0x85 || n == 0xA0 || n == 0x1680
    || 0x2000 <= n <= 0x200A
    || n == 0x2028 || n == 0x2029 || n == 0x202F || n == 0x205F || n == 0x3000
  }

  /** `string.IsNullOrWhiteSpace`: absent, empty, or white space only. */
  predicate IsNullOrWhiteSpace(s: Option<string>)
  {
    s.None? || forall i :: 0 <= i < |s.value| ==> IsWhiteSpace(s.value[i])
  }

  /**
   * A string is not blank exactly when it is present and has a character
   * that is not white space; a null or empty string is blank.
   */
  lemma BlankMeaning(s: Option<string>)
    ensures !IsNullOrWhiteSpace(s) <==> s.Some? && exists c :: c in s.value && !IsWhiteSpace(c)
    ensures IsNullOrEmpty(s) ==> IsNullOrWhiteSpace(s)
  {
    if s.Some? && exists c :: c in s.value && !IsWhiteSpace(c) {
      var c :| c in s.value && !IsWhiteSpace(c);
      var i :| 0 <= i < |s.value| && s.value[i] == c;
    }
  }

  /** `string.IsNullOrEmpty`. */
  predicate IsNullOrEmpty(s: Option<string>)
  {
    s.None? || s.value == ""
  }

  /** The directory separators `Path` recognises ('/' and the Windows '\'). */
  predicate IsDirectorySeparator(c: char)
  {
    c == '/' || c == '\\'
  }

  /** `Path.GetFileName`: the part of `path` after its last directory separator. */
  function FileName(path: string): (r: string)
    ensures |r| <= |path| && r == path[|path| - |r|..]
    ensures forall i :: 0 <= i < |r| ==> !IsDirectorySeparator(r[i])
    ensures |r| < |path| ==> IsDirectorySeparator(path[|path| - |r| - 1])
  {
    if |path| == 0 then ""
    else if IsDirectorySeparator(path[|path| - 1]) then ""
    else FileName(path[..|path| - 1]) + [path[|path| - 1]]
  }

  /** A path with no directory separator is its own file name. */
  lemma {:induction false} FileNameWithoutSeparator(path: string)
    requires forall i :: 0 <= i < |path| ==> !IsDirectorySeparator(path[i])
    ensures FileName(path) == path
    decreases |path|
  {
    if |path| > 0 {
      FileNameWithoutSeparator(path[..|path| - 1]);
    }
  }

  /** `Path.GetExtension`: from the last '.' of the file name on, or "" when there is no '.' or it is the last character. */
  function Extension(path: string): (r: string)
    ensures r == "" || (r[0] == '.' && |r| >= 2 && EndsWith(path, r) && '.' !in r[1..])
    ensures var name := FileName(path);
      r == "" <==> '.' !in name || name[|name| - 1] == '.'
    ensures var name := FileName(path);
      r != "" ==> r == name[LastIndexOf(name, '.')..]
  {
    var name := FileName(path);
    var dot := LastIndexOf(name, '.');
    if dot < 0 || dot == |name| - 1 then ""
    else
      assert name[dot..][1..] == name[dot + 1..];
      assert path[|path| - |name[dot..]|..] == name[dot..];
      name[dot..]
  }

  /** `Path.GetFileNameWithoutExtension`: the file name up to its last '.'. */
  function FileNameWithoutExtension(path: string): (r: string)
    ensures r <= FileName(path)
    ensures Extension(path) != "" ==> FileName(path) == r + Extension(path)
    ensures '.' !in FileName(path) ==> r == FileName(path)
    ensures '.' in FileName(path) ==> r == FileName(path)[..LastIndexOf(FileName(path), '.')]
  {
    var name := FileName(path);
    var dot := LastIndexOf(name, '.');
    if dot < 0 then name
    else
      ExtensionFromLastDot(path);
      SplitAt(name, dot);
      name[..dot]
  }

  /** A non-empty extension is the file name from its last '.' on. */
  lemma ExtensionFromLastDot(path: string)
    ensures var name := FileName(path);
      Extension(path) != "" ==> Extension(path) == name[LastIndexOf(name, '.')..]
  {
  }

  /** Cutting a sequence at `k` and joining the halves gives it back. */
  lemma SplitAt(s: string, k: nat)
    requires k <= |s|
    ensures s[..k] + s[k..] == s
  {
  }
}

=== FILE: wrappers.dfy ===
/** The absent-or-present value that stands in for C#'s `null` references. */
module Wrappers {

  datatype Option<+T> = None | Some(value: T) {

    /** The wrapped value, or `default` when there is none. */
    function GetOr(default: T): T
    {
      match this
      case Some(v) => v
      case None => default
    }
  }
}
